=== FILE: README.md ===
# SQL Query Generator: the SQL text normaliser, the syntax pre-check and the `/execute` gateway

The application has a Streamlit front end and a Flask back end. The front end
asks a language model for SQL, tidies the answer with `clean_sql_query`,
screens it with `validate_sql_syntax`, and posts it to the back end's
`/execute` route. That route runs the statement on MySQL and answers with
JSON. This project models those three pieces in Dafny and proves what they
promise.

- `text.dfy` (module `Text`) defines the string primitives both front-end
  functions rely on:
  - Python's whitespace set, the one `\s` matches in a `str` pattern and the one
    `str.strip()` removes;
  - `strip`;
  - ASCII `upper`;
  - one-character `count`;
  - the count of backslash-apostrophe pairs.
- `normalizer.dfy` (module `Normalizer`) models `clean_sql_query` with its five
  regular expressions as written:
  - `^` and `$` match at every line boundary (MULTILINE);
  - `\s*` is greedy and crosses line feeds;
  - IGNORECASE applies only to the `sql` tag, where Python's case folding also
    lets `s` match U+017F.

  Each pattern has an exact matcher, `MatchLength`. `re.sub` is a left-to-right
  scan over the table of match lengths, `Matches` and `Scan`. The anchors always
  look at the whole original text, as Python's do. On this model the module
  proves the following:
  - what a cleaned statement looks like;
  - when cleaning changes nothing;
  - idempotence on backtick-free text;
  - that the two spacing rewrites together compute an independent definition of
    the whitespace collapse, `Squeeze`;
  - how a fenced block is unwrapped.
- `clean_examples.dfy` (module `CleanExamples`) proves concrete cleanings from
  the general lemmas. Among them is an input on which cleaning is not
  idempotent.
- `precheck.dfy` (module `PreCheck`) models `validate_sql_syntax`:
  - the keyword prefix test on the upper-cased, stripped text;
  - the parenthesis count;
  - the apostrophe parity;
  - that the first failure decides the message.

  The module proves that the verdict ignores letter case, that a keyword in
  front passes whatever follows it, and that blank input fails.
- `precheck_examples.dfy` (module `PreCheckExamples`) proves concrete verdicts.
- `gateway.dfy` (module `Gateway`) models the back end:
  - `_to_jsonable`;
  - the parameter checks of `/schema` and `/columns`;
  - the `/execute` handler.

  The handler is a method over a `Connection` and a `Cursor` class, with
  `committed`, `rolledBack` and `closed` flags and the set of open cursors. The
  driver's answer to the statement is an input, `Outcome`: either it ran, with a
  description, rows and a row count, or it raised a MySQL error (errno and
  message) or another exception (its text). A row value is one of the kinds
  `_to_jsonable` converts, a kind the JSON encoder writes out, or any other kind
  (`bytes`, `timedelta`, `set`), which `_to_jsonable` passes through and on
  which `jsonify` raises `TypeError` inside the `try`. That is a fourth way out
  of the `try`: rollback and a 400 carrying the encoder's error text, which is an
  input because the encoder belongs to Flask. The method's reply equals the pure
  function `ExecuteReply`. Its contract states:
  - the parameter precedence;
  - the branch taken;
  - the shape of each body.

  The method's contract states:
  - that no connection is opened when a parameter is missing;
  - that the connection commits exactly on the row-count branch;
  - that it rolls back exactly on the two failing branches, a driver error and
    an encoding error;
  - that the cursor and the connection are closed on every path once the cursor
    is opened, when the driver's own calls after `execute` do not raise (those
    failures, and one of `conn.cursor()` itself, are left out, see below).

Two behaviours of the code are worth knowing:

- A trailing `;` is appended only when missing, so `SELECT 1;;` keeps both.
- Cleaning is idempotent only on text without backticks. For example,
  ```` ``` ```sql x ```` cleans to ```` ```sql x; ````. The first pass removes
  only the line-initial ```` ``` ````, which leaves ```` ```sql ```` at the
  start of the line, and the second pass removes it too.

## Model

| member | source | states |
|---|---|---|
| Text.IsSpace | frontend/app.py:22-26 | no contract: Python's `str.isspace()` set, which `\s` matches in a `str` pattern and `strip()` removes; see TrimStart, TrimEnd, SpaceRunEnd |
| Text.Strip | frontend/app.py:22 | `strip()` leaves no whitespace at either end |
| Text.TrimStart | frontend/app.py:22 | drops exactly the longest all-whitespace prefix |
| Text.TrimEnd | frontend/app.py:22 | drops exactly the longest all-whitespace suffix |
| Text.StripNoSpaceAtEnds | frontend/app.py:22 | text with no whitespace at either end strips to itself |
| Text.StripAllSpace | frontend/app.py:22 | all-whitespace text strips to the empty string |
| Text.Upper | frontend/app.py:36 | `upper()` keeps the length and upper-cases each ASCII letter in place |
| Text.Count | frontend/app.py:45 | `count(c)` is at most the length and is 0 exactly when `c` is absent |
| Text.CountConcat | frontend/app.py:45 | counting distributes over concatenation |
| Text.CountEscapedQuotes | frontend/app.py:49 | no contract: the non-overlapping count of backslash-apostrophe pairs; see EscapedQuotesAtMostQuotes, EscapedQuotesWithoutBackslash, EscapedQuotesConcat |
| Text.EscapedQuotesAtMostQuotes | frontend/app.py:49 | backslash-apostrophe pairs never outnumber apostrophes, so the parity is taken of a natural number |
| Text.EscapedQuotesConcat | frontend/app.py:49 | pair counts add up over a concatenation unless a pair straddles the seam |
| Normalizer.Replacement | frontend/app.py:17-26 | no contract: the empty replacement of the three fence patterns, `'\n'` for `\n\s*\n` and `' '` for `\s+` |
| Normalizer.AtLineStart | frontend/app.py:17-18 | no contract: `^` under MULTILINE, the start of the text or just after a line feed; see OpenFenceMidLine, OpenSqlFenceAfterPreamble |
| Normalizer.AtLineEnd | frontend/app.py:19 | no contract: `$` under MULTILINE, the end of the text or just before a line feed; see CloseFenceOfLineEnd, CloseFenceBeforeLineFeed |
| Normalizer.FenceAt | frontend/app.py:17-19 | no contract: three backticks at the position; see FenceSubWithoutBacktick |
| Normalizer.SqlTagAt | frontend/app.py:17 | no contract: `sql` under IGNORECASE, including U+017F (long s), which Python's case folding matches to `s`; see OpenSqlFenceOfBlock, OpenSqlFenceAfterPreamble |
| Normalizer.SpaceRunEnd | frontend/app.py:17-18 | greedy `\s*` stops at the first non-whitespace character or the end |
| Normalizer.LastNewline | frontend/app.py:25 | `\s*\n` ends at the last line feed of the whitespace run, after backtracking |
| Normalizer.MatchLength | frontend/app.py:17-26 | a match of any of the five patterns stays within the text |
| Normalizer.Matches | frontend/app.py:17-26 | the match table holds each position's match length, none running past the end |
| Normalizer.CleanSqlQuery | frontend/app.py:11-32 | empty input is returned unchanged; otherwise the result ends with `;`, has no whitespace at its ends, only single plain spaces, and no line feed or tab |
| Normalizer.CleanShape | frontend/app.py:22-30 | after trimming, the spacing rewrites give a single line that is empty only when the trimmed text was, and appending `;` keeps it a single line |
| Normalizer.Scan | frontend/app.py:17-26 | no contract: `re.sub`'s left-to-right scan, copying a character where nothing matches and emitting the replacement over a match; see ScanCopies, ScanAddsNothing, ScanKeepsEnds, ScanBetweenMatches |
| Normalizer.Sub | frontend/app.py:17-26 | no contract: `re.sub(p, repl, s)` as the scan over the match table of `s`; see SubWithoutMatch, SubAfterLeadingMatch |
| Normalizer.StripFences | frontend/app.py:17-19 | no contract: the three fence removals in source order; see StripFencesWithoutBacktick, StripFencesOfBlock, StripFencesOfLine, StripFencesOfUntaggedBlock, and for fences inside a longer reply OpenSqlFenceAfterPreamble, CloseFenceBeforeLineFeed, CleanFencedAfterPreamble |
| Normalizer.CollapseSpacing | frontend/app.py:25-26 | no contract: the two spacing rewrites in source order; see CollapseSpacingIsSqueeze, CleanShape |
| Normalizer.Terminated | frontend/app.py:29-30 | no contract: `;` is appended unless the text already ends with one; see CleanSingleLine, CleanKeepsDoubleSemicolon |
| Normalizer.ScanCopies | frontend/app.py:17-26 | `re.sub` copies every stretch of text where nothing matches |
| Normalizer.ScanAddsNothing | frontend/app.py:17-26 | `re.sub` adds no character that is in neither the text nor the replacement |
| Normalizer.ScanKeepsEnds | frontend/app.py:25-26 | a rewrite whose matches are all whitespace keeps non-space ends and does not empty the text |
| Normalizer.SpacingMatches | frontend/app.py:25-26 | every match of `\n\s*\n` and of `\s+` is whitespace |
| Normalizer.SpaceRunSingleSpaced | frontend/app.py:26 | after `\s+` becomes a space, every whitespace character is a lone plain space |
| Normalizer.SpaceRunKeepsSingleSpaced | frontend/app.py:26 | `\s+` becoming a space leaves single-spaced text unchanged |
| Normalizer.SubWithoutMatch | frontend/app.py:17-26 | where a pattern matches nowhere, `re.sub` returns its input |
| Normalizer.ScanBetweenMatches | frontend/app.py:18 | a scan with one match at the start, then none, then one reaching the end, emits the text between the two matches |
| Normalizer.SubAfterLeadingMatch | frontend/app.py:17-19 | a single match at the start is replaced and the rest is copied |
| Normalizer.FenceSubWithoutBacktick | frontend/app.py:17-19 | each fence pattern leaves backtick-free text unchanged |
| Normalizer.StripFencesWithoutBacktick | frontend/app.py:17-19 | the three fence removals leave backtick-free text unchanged |
| Normalizer.CleanSingleLine | frontend/app.py:29-30 | a backtick-free single line only gains `;`, and only when it does not already end with one |
| Normalizer.CleanAddsNoBacktick | frontend/app.py:17-30 | cleaning backtick-free text yields backtick-free text |
| Normalizer.CleanIdempotent | frontend/app.py:17-30 | on backtick-free input, cleaning twice is cleaning once |
| Normalizer.CleanOfBlankBody | frontend/app.py:13-30 | non-empty input that is empty once fences and surrounding whitespace are gone cleans to exactly `;` |
| Normalizer.CleanOfWhitespace | frontend/app.py:13-30 | non-empty all-whitespace input cleans to exactly `;` |
| Normalizer.Squeeze | frontend/app.py:25-26 | the reference collapse starts with a space exactly when its input starts with whitespace, and otherwise with the same character |
| Normalizer.SqueezeSpaces | frontend/app.py:26 | a leading whitespace run collapses into one space shared with the rest of the run |
| Normalizer.SqueezeWord | frontend/app.py:26 | a leading word without whitespace is kept as it is |
| Normalizer.SpaceRunIsSqueeze | frontend/app.py:26 | the `\s+` rewrite equals the reference collapse |
| Normalizer.BlankLinesInvisible | frontend/app.py:25 | after the `\n\s*\n` rewrite the collapse gives the same result as before it |
| Normalizer.CollapseSpacingIsSqueeze | frontend/app.py:25-26 | the two spacing rewrites together equal the reference collapse |
| Normalizer.CleanWithoutFences | frontend/app.py:17-30 | on backtick-free input, cleaning is strip, then collapse, then `;` when missing |
| Normalizer.OpenSqlFenceOfBlock | frontend/app.py:17 | a line-initial ```` ```sql ```` in any letter case goes together with all the whitespace after it, the line feed and the leading whitespace of the text up to the closing fence, and the closing fence stays |
| Normalizer.OpenFenceOfBlockEnd | frontend/app.py:18 | a closing ```` ``` ```` at the start of the last line is removed by the second pattern, and the line feed before it stays |
| Normalizer.StripFencesOfBlock | frontend/app.py:17-19 | the three fence removals leave of a block its body without leading whitespace, followed by the line feed that preceded the closing fence |
| Normalizer.StripTrimStartAppendSpace | frontend/app.py:22 | a whitespace character appended to the text does not change what `strip()` keeps |
| Normalizer.CleanFencedBlock | frontend/app.py:17-30 | a fenced block tagged `sql`, around any non-empty backtick-free body, cleans like its body alone |
| Normalizer.OpenFenceMidLine | frontend/app.py:18 | a fence at the end of a line of text is not at a line start, so the second pattern leaves it |
| Normalizer.CloseFenceOfLineEnd | frontend/app.py:19 | `\n?```$` with `$` at the end of the text: a fence that ends the last line of text, after other text, is removed and that text is kept (a fence ending an inner line: CloseFenceBeforeLineFeed) |
| Normalizer.StripFencesOfLine | frontend/app.py:17-19 | on a `sql`-tagged block whose closing fence ends the last line, the three fence removals leave the body without leading whitespace |
| Normalizer.CleanFencedLine | frontend/app.py:17-30 | a `sql`-tagged block whose closing fence ends the last line cleans like its body alone |
| Normalizer.UntaggedNoSqlFence | frontend/app.py:17 | the first pattern finds nothing in an untagged block |
| Normalizer.OpenFenceOfUntaggedBlock | frontend/app.py:18 | the second pattern removes both fences of an untagged block: the opening one with the whitespace after it, and the closing one, which starts a line |
| Normalizer.StripFencesOfUntaggedBlock | frontend/app.py:17-19 | the three fence removals leave of an untagged block its body without leading whitespace, followed by a line feed |
| Normalizer.CleanUntaggedBlock | frontend/app.py:17-30 | an untagged fenced block around any non-empty backtick-free body cleans like its body alone |
| Normalizer.ScanOfOneMatch | frontend/app.py:17-19 | a scan whose only match is at `i` returns the text before it, the replacement and the text after the match |
| Normalizer.OneSqlFence | frontend/app.py:17 | at a line start `i` holding ```` ```sql ```` and a line feed before a non-space character, with no other backtick able to begin a tagged fence, the first pattern removes exactly those seven characters |
| Normalizer.OpenSqlFenceAfterPreamble | frontend/app.py:17 | `^` under MULTILINE: a ```` ```sql ```` line (any letter case) after a line of prose is removed, and the prose with its line feed stays |
| Normalizer.OpenSqlFenceAfterPreambleBlock | frontend/app.py:17 | the same with a closing fence on the last line, which the first pattern leaves because no tag follows it |
| Normalizer.OneCloseFence | frontend/app.py:19 | a fence that ends a line it does not start, with no other backtick in the text, is removed alone and the line feed after it stays |
| Normalizer.CloseFenceBeforeLineFeed | frontend/app.py:19 | `$` under MULTILINE: a fence that ends an inner line of text is removed, and the line feed after it and the rest of the text stay |
| Normalizer.StripAppendSpace | frontend/app.py:22 | `strip()` of a text with a whitespace character appended equals `strip()` of the text itself |
| Normalizer.CleanFencedAfterPreamble | frontend/app.py:17-30 | a reply with a line of prose before a `sql`-tagged block cleans like the prose and the body without the fences: the prose is kept in the query |
| CleanExamples.CleanCollapsesWhitespace | frontend/app.py:25-30 | `"SELECT  1,\n\n   2"` cleans to `"SELECT 1, 2;"` |
| CleanExamples.CleanRemovesFences | frontend/app.py:17-19 | ```` "```sql\nSELECT 1\n```" ```` cleans to `"SELECT 1;"` |
| CleanExamples.CleanRemovesLineEndFence | frontend/app.py:17-19 | ```` "```sql\nSELECT 1```" ```` cleans to `"SELECT 1;"`, the closing fence going by the third pattern |
| CleanExamples.CleanRemovesUntaggedFences | frontend/app.py:18 | ```` "```\nSELECT 1\n```" ```` cleans to `"SELECT 1;"` |
| CleanExamples.CleanKeepsPreamble | frontend/app.py:17-30 | ```` "Here:\n```sql\nSELECT 1\n```" ```` cleans to `"Here: SELECT 1;"`: the fences go and the prose stays |
| CleanExamples.CleanKeepsDoubleSemicolon | frontend/app.py:29-30 | `"SELECT 1;;"` is returned as it is |
| CleanExamples.CleanOfBlankInputs | frontend/app.py:13-14 | `"   "` cleans to `";"`, while `""` is returned unchanged |
| CleanExamples.CleanNotIdempotentOnFences | frontend/app.py:17-19 | ```` "``` ```sql x" ```` cleans to ```` "```sql x;" ````, which cleans to `"x;"` |
| PreCheck.Message | frontend/app.py:42-53 | returns the texts of lines 42, 46, 51 and 53 verbatim (its length bound only serves MessageDetermines) |
| PreCheck.MessageDetermines | frontend/app.py:42-53 | the four messages are distinct |
| PreCheck.StartsWithAny | frontend/app.py:41 | no contract: `any(text.startswith(k) for k in keywords)`, some keyword being a prefix of the text; see KeywordPrefixPasses, PrefixTestExamples |
| PreCheck.HasValidStart | frontend/app.py:36-41 | no contract: some keyword is a prefix of the upper-cased, stripped text; see StartIgnoresCase, KeywordPrefixPasses, BlankFailsKeyword |
| PreCheck.ParensBalanced | frontend/app.py:45 | no contract: as many `(` as `)`; see ParensIgnoreCase, ParensOrderIgnored |
| PreCheck.QuotesBalanced | frontend/app.py:49-50 | no contract: apostrophes minus backslash-apostrophe pairs is even; see QuotesIgnoreCase, AcceptsEscapedQuote |
| PreCheck.Check | frontend/app.py:41-53 | the three checks run in order and the first failure decides: one iff for each outcome |
| PreCheck.ValidateSqlSyntax | frontend/app.py:34-53 | the verdict is valid exactly when all three checks pass, and carries the deciding check's message |
| PreCheck.VerdictMessages | frontend/app.py:41-53 | the verdict is valid exactly when its message is "Query syntax appears valid"; each failure message appears exactly when its check is the first to fail |
| PreCheck.StartIgnoresCase | frontend/app.py:36-41 | the keyword check gives the same answer on upper-cased text |
| PreCheck.ParensIgnoreCase | frontend/app.py:45 | the parenthesis check gives the same answer on upper-cased text |
| PreCheck.QuotesIgnoreCase | frontend/app.py:49-50 | the apostrophe check gives the same answer on upper-cased text |
| PreCheck.ValidateIgnoresCase | frontend/app.py:34-53 | the verdict does not depend on letter case |
| PreCheck.KeywordPrefixPasses | frontend/app.py:36-41 | leading whitespace, then a keyword in any case, passes the keyword check whatever follows |
| PreCheck.KeywordStatement | frontend/app.py:41-53 | after a leading keyword, only the rest of the statement decides the verdict |
| PreCheck.BlankFailsKeyword | frontend/app.py:36-42 | all-whitespace input, the empty string included, fails the keyword check |
| PreCheckExamples.AcceptsPlainSelect | frontend/app.py:41-53 | `"SELECT * FROM t"` is valid |
| PreCheckExamples.PrefixTestExamples | frontend/app.py:36-41 | `"  select x"` and `"SELECTED"` pass the keyword check |
| PreCheckExamples.ParensOrderIgnored | frontend/app.py:45-46 | `"SELECT )("` is valid: parentheses are counted, not matched |
| PreCheckExamples.RejectsOpenParen | frontend/app.py:45-46 | `"SELECT * FROM t("` fails on parentheses |
| PreCheckExamples.RejectsOpenQuote | frontend/app.py:49-51 | `"SELECT 'a"` fails on apostrophes |
| PreCheckExamples.AcceptsEscapedQuote | frontend/app.py:49-53 | `"SELECT 'it\'s ok'"` is valid: the backslash-apostrophe pair is not counted |
| PreCheckExamples.RejectsMisspelledKeyword | frontend/app.py:41-42 | `"SELEKT * FROM t"` fails the keyword check |
| Gateway.Convertible | backend/app.py:10 | no contract: the `isinstance` test for `date`, `datetime`, `time` and `Decimal`; see ToJsonable |
| Gateway.StrOf | backend/app.py:11 | no contract: `str(val)` of those four kinds, the text the driver's value carries; see ToJsonable |
| Gateway.ToJsonable | backend/app.py:9-12 | dates, datetimes, times and decimals become their text; every other value is returned as it is; no convertible value remains, and the result is encodable exactly when the value was not of a kind outside the encoder's reach |
| Gateway.ToJsonableIdempotent | backend/app.py:9-12 | converting twice is converting once |
| Gateway.RowDict | backend/app.py:67 | no value in a row's dictionary is a date, time or decimal |
| Gateway.RowDictEncodable | backend/app.py:9-12 | a row without pass-through kinds the encoder cannot take gives a dictionary whose every value is encodable |
| Gateway.RowDictKeys | backend/app.py:67 | a row's dictionary has exactly the column names that `zip` reaches as keys |
| Gateway.RowDictValue | backend/app.py:67 | a column whose name does not recur later maps to its own converted value |
| Gateway.RowDictOfDistinct | backend/app.py:67 | with distinct names and a full row, each column maps to its converted value and there are no other keys |
| Gateway.Encodable | backend/app.py:73 | no contract: the kinds `jsonify` writes out; any other raises `TypeError`; see ToJsonable, RowDictEncodable |
| Gateway.AllEncodable | backend/app.py:67-73 | no contract: every value of every row dictionary is encodable, which is when `jsonify(result)` succeeds; see BranchOf, ResultSetIsJson, UnencodableValueFails |
| Gateway.BranchOf | backend/app.py:62-79 | the error branch is taken exactly when the driver raises; the row-count branch exactly when the description is empty; otherwise the result-set branch when every value can be encoded and the encoding-error branch when one cannot |
| Gateway.ColumnNames | backend/app.py:65 | `columns` is the name of each description entry, in order |
| Gateway.RowDicts | backend/app.py:66-67 | `data` has one dictionary per fetched row |
| Gateway.ErrorText | backend/app.py:76-79 | no contract: `"<errno> <msg>"` for a MySQL error, `str(e)` for any other; see DriverErrorRoundTrip, ExecuteReplyContents |
| Gateway.IntToString | backend/app.py:76 | an errno's text is non-empty, has no space, and starts with a digit or `-` |
| Gateway.ErrnoText | backend/app.py:76 | the errno part of the error text is non-empty and has no space |
| Gateway.NatRoundTrip | backend/app.py:76 | decimal digits read back to the number |
| Gateway.IntRoundTrip | backend/app.py:76 | a signed errno reads back from its text |
| Gateway.DriverErrorRoundTrip | backend/app.py:76 | errno and message can both be read back from `"<errno> <msg>"`, spaces in the message included |
| Gateway.ExecuteReply | backend/app.py:49-82 | a missing query is reported first, then a missing db, both with 400; the reply is 400 exactly on a failure; once admitted, a result set and a row count appear exactly on their branches and a failure exactly on the two rolling-back branches |
| Gateway.ExecuteReplyContents | backend/app.py:64-79 | the driver's error text, the encoder's error text, the row count, and the columns with one dictionary per row are what each branch returns |
| Gateway.ResultSetIsJson | backend/app.py:67-73 | a result set is sent only when every value in it can be encoded, and none is an unconverted date, time or decimal |
| Gateway.EncodableRowsSucceed | backend/app.py:64-73 | rows holding no pass-through kind the encoder cannot take always give a 200 result set |
| Gateway.UnencodableValueFails | backend/app.py:67-79 | a `bytes`, `timedelta` or other pass-through value in a column whose name does not recur later makes `jsonify` fail: rollback and 400 with the encoder's text |
| Gateway.ResultSetRows | backend/app.py:65-68 | with distinct column names, each row's dictionary pairs every column with that row's converted value and has no other key |
| Gateway.FailureIffRollback | backend/app.py:61-79 | once admitted, the reply is 400 exactly on the branches that roll back and 200 otherwise |
| Gateway.Truthy | backend/app.py:54-56 | no contract: Python truthiness of an optional string, present and non-empty, as `not query` and `not db` test it here and at lines 31 and 39; see ExecuteReply, SchemaGate, ColumnsGate |
| Gateway.SchemaGate | backend/app.py:31-32 | `/schema` answers 400 with its message exactly when `db` is missing or empty |
| Gateway.ColumnsGate | backend/app.py:39-40 | `/columns` answers 400 with its message unless `db` and `table` are both present and non-empty |
| Gateway.Connection.constructor | backend/app.py:59 | a new connection is on the requested database, with nothing committed, rolled back or closed |
| Gateway.Connection.OpenCursor | backend/app.py:60 | a fresh open cursor on this connection joins its open cursors |
| Gateway.Connection.Commit | backend/app.py:71 | commit sets `committed` and changes nothing else |
| Gateway.Connection.Rollback | backend/app.py:75-78 | rollback sets `rolledBack` and changes nothing else |
| Gateway.Connection.Close | backend/app.py:82 | close sets `closed` and changes nothing else |
| Gateway.Cursor.constructor | backend/app.py:60 | a new cursor is open and holds no description, no rows and the row count -1 |
| Gateway.Cursor.Execute | backend/app.py:62 | a raise leaves the cursor as it was and hands back the error; a run stores the description, the rows and the row count |
| Gateway.Cursor.FetchAll | backend/app.py:66 | `fetchall` returns the pending rows and leaves none |
| Gateway.Cursor.Close | backend/app.py:81 | close marks the cursor closed and removes it from its connection's open cursors; its description, pending rows and row count stay as they were, and the connection's flags too |
| Gateway.Execute | backend/app.py:49-82 | the reply is `ExecuteReply`; no connection is opened when a parameter is missing; otherwise the connection commits exactly on the row-count branch, rolls back exactly on the driver-error and encoding-error branches, and, as no driver call after `execute` raises in the model, ends closed with no open cursor |

## Left out

- The Streamlit script (frontend/app.py:83-343): it is user-interface code,
  with widgets, session state and CSV export.
- The language-model calls: `fix_sql_with_ai`, the generation prompt and the
  explanation prompt. They are foreign calls.
- HTTP, Flask routing and `app.run`: these are transport. A reply is modelled
  as a status and a body datatype. Of JSON encoding only its failure on a value
  it cannot take is modelled; the error text is an input.
- backend/db.py is not part of this model:
  - `get_connection` is a driver call;
  - `get_schema_for_db` renames driver rows.

  `/schema` is modelled only up to its parameter check.
- `list_dbs` and the driver part of `/columns` (backend/app.py:18-26, 41-47):
  they are direct driver calls. `/columns` is modelled only up to its parameter
  check.
- What MySQL does with a statement. The description, rows, row count and any
  error are the `Outcome` input.
- Gateway.Execute: a failing `get_connection` (backend/app.py:59) is not
  modelled. It happens outside the `try`, so it would surface as a server error.
- Gateway.Execute: a failing `conn.cursor()` (backend/app.py:60) is not
  modelled. It raises outside the `try`, so it leaves the connection open.
- Gateway.Execute: the text of the encoder's `TypeError` is an input, not
  derived from the offending value, and which value the encoder meets first is
  not modelled. Flask's encoder is not part of this model.
- Gateway.Execute: exceptions raised by `fetchall`, `commit`, `rollback`,
  `cur.close()` or `conn.close()` are not modelled. One from `fetchall` or
  `commit` would lead to a rollback and a 400; one from `rollback` would leave
  the handler as an uncaught exception; a raising `cur.close()` would skip
  `conn.close()`.
- Gateway.Execute: a description of `None` and an empty description are both
  the empty sequence, because `if cur.description:` treats them alike.
- Gateway.ErrorText: a MySQL error whose `msg` is `None` is not modelled. Its
  text would read `None` there. The model lets `errno` be absent and formats it
  as `None`, as an f-string would; whether the driver ever leaves it unset is
  the driver's business, and the driver is not part of this model.
- Gateway.Value: the kinds the driver can return are not enumerated. Anything
  beyond the converted kinds and the encodable ones is one `Other` kind, which
  the encoder rejects.
- Gateway.ExecRequest: payload fields that are not strings are not modelled.
  This covers numbers, lists, a non-object payload and the truthiness of
  non-string values.
- Normalizer.CleanSqlQuery: a `None` argument is not modelled. The model's
  input is a string, so the falsy input is the empty string.
- Text.Upper: only ASCII letters are upper-cased. Python's `upper()` also maps
  other letters and can lengthen the text (`ß` becomes `SS`).
- Text.IsSpace: whitespace is Python's `str.isspace()` set. It serves both for
  `\s` in a `str` pattern and for `strip()`, which agree on it.

=== FILE: clean_examples.dfy ===
/** Worked examples of `clean_sql_query`, each derived from the general lemmas of
    module Normalizer rather than by evaluating the scans. The example strings are
    written as concatenations and passed as parameters, which keeps the verifier
    from unrolling every scan over them. */
module CleanExamples {
  import opened Text
  import opened Normalizer

  /** "SELECT  1,\n\n   2" cleans to "SELECT 1, 2;". */
  lemma CleanCollapsesWhitespace(raw: string)
    requires raw == "SELECT" + "  " + "1," + "\n\n   " + "2"
    ensures CleanSqlQuery(raw) == "SELECT 1, 2;"
  {
    WhitespaceExampleText(raw);
    CleanWithoutFences(raw);
    StripNoSpaceAtEnds(raw);
    SqueezeWhitespaceExample();
  }

  lemma WhitespaceExampleText(raw: string)
    requires raw == "SELECT" + "  " + "1," + "\n\n   " + "2"
    ensures '`' !in raw && NoSpaceAtEnds(raw)
    ensures raw == "SELECT" + ("  " + ("1," + ("\n\n   " + "2")))
  {
  }

  lemma SqueezeWhitespaceExample()
    ensures Squeeze("SELECT" + ("  " + ("1," + ("\n\n   " + "2")))) == "SELECT 1, 2"
  {
    SqueezeExampleTail();
    SqueezeWord("SELECT", "  " + ("1," + ("\n\n   " + "2")));
  }

  lemma SqueezeExampleTail()
    ensures Squeeze("  " + ("1," + ("\n\n   " + "2"))) == " 1, 2"
  {
    SqueezeExampleLastRun();
    SqueezeWord("1,", "\n\n   " + "2");
    SqueezeSpaces("  ", "1," + ("\n\n   " + "2"));
  }

  lemma SqueezeExampleLastRun()
    ensures Squeeze("\n\n   " + "2") == " 2"
  {
    SqueezeWord("2", []);
    assert "2" + [] == "2";
    SqueezeSpaces("\n\n   ", "2");
  }

  /** The fenced answer "```sql\nSELECT 1\n```" cleans to "SELECT 1;". */
  lemma CleanRemovesFences(raw: string, body: string)
    requires body == "SELECT" + " 1"
    requires raw == "```" + "sql" + "\n" + body + "\n```"
    ensures CleanSqlQuery(raw) == "SELECT 1;"
  {
    SelectOneText(body);
    CleanFencedBlock("sql", body);
    CleanSingleLine(body);
  }

  lemma SelectOneText(body: string)
    requires body == "SELECT" + " 1"
    ensures '`' !in body && !IsSpace(body[0]) && SingleLine(body) && !EndsWithSemicolon(body)
    ensures body + ";" == "SELECT 1;"
  {
  }

  /** "```sql\nSELECT 1```", with the closing fence at the end of the line, also
      cleans to "SELECT 1;". */
  lemma CleanRemovesLineEndFence(raw: string, body: string)
    requires body == "SELECT" + " 1"
    requires raw == "```" + "sql" + "\n" + body + "```"
    ensures CleanSqlQuery(raw) == "SELECT 1;"
  {
    SelectOneText(body);
    CleanFencedLine("sql", body);
    CleanSingleLine(body);
  }

  /** An untagged block, "```\nSELECT 1\n```", cleans to "SELECT 1;". */
  lemma CleanRemovesUntaggedFences(raw: string, body: string)
    requires body == "SELECT" + " 1"
    requires raw == "```\n" + body + "\n```"
    ensures CleanSqlQuery(raw) == "SELECT 1;"
  {
    SelectOneText(body);
    CleanUntaggedBlock(body);
    CleanSingleLine(body);
  }

  /** A reply with a line of prose before its block, "Here:\n```sql\nSELECT 1\n```",
      cleans to "Here: SELECT 1;": the fences go and the prose is kept. */
  lemma CleanKeepsPreamble(raw: string, prose: string, body: string)
    requires prose == "Here:"
    requires body == "SELECT" + " 1"
    requires raw == prose + "\n```" + "sql" + "\n" + body + "\n```"
    ensures CleanSqlQuery(raw) == "Here: SELECT 1;"
  {
    var x := prose + "\n" + body;
    SelectOneText(body);
    PreambleExampleText(prose, body, x);
    CleanFencedAfterPreamble(prose, "sql", body);
    CleanWithoutFences(x);
    StripNoSpaceAtEnds(x);
    SqueezePreambleExample();
  }

  lemma PreambleExampleText(prose: string, body: string, x: string)
    requires prose == "Here:" && body == "SELECT" + " 1" && x == prose + "\n" + body
    ensures '`' !in prose && '`' !in x && NoSpaceAtEnds(x)
    ensures x == "Here:" + ("\n" + ("SELECT" + (" " + "1")))
    ensures !EndsWithSemicolon("Here: SELECT 1") && "Here: SELECT 1" + ";" == "Here: SELECT 1;"
  {
  }

  lemma SqueezePreambleExample()
    ensures Squeeze("Here:" + ("\n" + ("SELECT" + (" " + "1")))) == "Here: SELECT 1"
  {
    SqueezePreambleTail();
    SqueezeSpaces("\n", "SELECT" + (" " + "1"));
    SqueezeWord("Here:", "\n" + ("SELECT" + (" " + "1")));
  }

  lemma SqueezePreambleTail()
    ensures Squeeze("SELECT" + (" " + "1")) == "SELECT 1"
  {
    SqueezeWord("1", []);
    assert "1" + [] == "1";
    SqueezeSpaces(" ", "1");
    SqueezeWord("SELECT", " " + "1");
  }

  /** The terminator is appended only when missing: "SELECT 1;;" keeps both. */
  lemma CleanKeepsDoubleSemicolon(raw: string)
    requires raw == "SELECT" + " 1" + ";;"
    ensures CleanSqlQuery(raw) == "SELECT 1;;"
  {
    DoubleSemicolonText(raw);
    CleanSingleLine(raw);
  }

  lemma DoubleSemicolonText(raw: string)
    requires raw == "SELECT" + " 1" + ";;"
    ensures '`' !in raw && SingleLine(raw) && EndsWithSemicolon(raw)
    ensures raw == "SELECT 1;;"
  {
  }

  /** Three spaces clean to ";", while the empty string stays empty. */
  lemma CleanOfBlankInputs(raw: string)
    requires raw == "   "
    ensures CleanSqlQuery(raw) == ";" && CleanSqlQuery("") == ""
  {
    CleanOfWhitespace(raw);
  }

  /** Idempotence needs the backtick-free premise: "``` ```sql x" cleans to
      "```sql x;", whose now line-initial "```sql " a second cleaning removes. */
  lemma CleanNotIdempotentOnFences(raw: string, once: string)
    requires raw == "```" + " " + "```sql" + " " + "x"
    requires once == "```sql" + " " + "x" + ";"
    ensures CleanSqlQuery(raw) == once
    ensures CleanSqlQuery(CleanSqlQuery(raw)) == "x;"
  {
    FirstCleaning(raw, once);
    SecondCleaning(once);
  }

  lemma FirstCleaning(raw: string, once: string)
    requires raw == "```" + " " + "```sql" + " " + "x"
    requires once == "```sql" + " " + "x" + ";"
    ensures CleanSqlQuery(raw) == once
  {
    FirstCleaningBody(raw, "```sql" + " " + "x", once);
  }

  lemma FirstCleaningBody(raw: string, t: string, once: string)
    requires raw == "```" + " " + "```sql" + " " + "x"
    requires t == "```sql" + " " + "x"
    requires once == "```sql" + " " + "x" + ";"
    ensures CleanSqlQuery(raw) == once
  {
    FirstCleaningFences(raw, t);
    FirstCleaningText(t, once);
    StripNoSpaceAtEnds(t);
    CollapseSpacingIsSqueeze(t);
    SqueezeFenceText();
  }

  lemma SqueezeFenceText()
    ensures Squeeze("```sql" + (" " + "x")) == "```sql" + " " + "x"
  {
    SqueezeWord("x", []);
    assert "x" + [] == "x";
    SqueezeSpaces(" ", "x");
    SqueezeWord("```sql", " " + "x");
  }

  lemma FirstCleaningText(t: string, once: string)
    requires t == "```sql" + " " + "x"
    requires once == "```sql" + " " + "x" + ";"
    ensures NoSpaceAtEnds(t) && !EndsWithSemicolon(t)
    ensures t == "```sql" + (" " + "x") && once == t + ";"
  {
  }

  /** On the first pass only `^```\s*\n?` matches: it removes "``` ". */
  lemma FirstCleaningFences(raw: string, t: string)
    requires raw == "```" + " " + "```sql" + " " + "x"
    requires t == "```sql" + " " + "x"
    ensures StripFences(raw) == t
  {
    forall k | 0 <= k < |raw|
      ensures MatchLength(OpenSqlFence, raw, k) == 0
    {
      assert raw[3] == ' ';
    }
    SubWithoutMatch(OpenSqlFence, raw);
    assert MatchLength(OpenFence, raw, 0) == 4 by {
      assert SpaceRunEnd(raw, 4) == 4;
    }
    forall k | 4 <= k < |raw|
      ensures MatchLength(OpenFence, raw, k) == 0
    {
      assert raw[k - 1] != '\n';
    }
    SubAfterLeadingMatch(OpenFence, raw, 4);
    assert raw[4..] == t;
    assert Sub(OpenFence, raw) == t;
    forall k | 0 <= k < |t|
      ensures MatchLength(CloseFence, t, k) == 0
    {
      assert t[|t| - 1] == 'x';
    }
    SubWithoutMatch(CloseFence, t);
  }

  lemma SecondCleaning(once: string)
    requires once == "```sql" + " " + "x" + ";"
    ensures CleanSqlQuery(once) == "x;"
  {
    var rest := "x" + ";";
    SecondCleaningFence(once, rest);
    FenceSubWithoutBacktick(OpenFence, rest);
    FenceSubWithoutBacktick(CloseFence, rest);
    RestText(rest);
    StripNoSpaceAtEnds(rest);
    SubWithoutMatch(BlankLines, rest);
    SpaceRunTable(rest);
    SpaceRunKeepsSingleSpaced(rest, Matches(SpaceRun, rest), 0);
    assert rest[0..] == rest;
  }

  lemma RestText(rest: string)
    requires rest == "x" + ";"
    ensures '`' !in rest && SingleLine(rest) && EndsWithSemicolon(rest) && rest == "x;"
    ensures forall k :: 0 <= k < |rest| ==> rest[k] != '\n'
  {
  }

  /** On the second pass `^```sql\s*\n?` matches at the start and takes the space with it. */
  lemma SecondCleaningFence(once: string, rest: string)
    requires once == "```sql" + " " + "x" + ";"
    requires rest == "x" + ";"
    ensures Sub(OpenSqlFence, once) == rest
  {
    assert MatchLength(OpenSqlFence, once, 0) == 7 by {
      assert SpaceRunEnd(once, 7) == 7;
    }
    forall k | 7 <= k < |once|
      ensures MatchLength(OpenSqlFence, once, k) == 0
    {
      assert once[k - 1] != '\n';
    }
    SubAfterLeadingMatch(OpenSqlFence, once, 7);
    assert once[7..] == rest;
  }
}

=== FILE: gateway.dfy ===
/** The database gateway: `_to_jsonable`, the `/execute` handler over an abstract
    driver, and the parameter checks of `/schema` and `/columns`. The driver's
    answer to a statement is an input (Outcome); what the handler does with it
    (reply, commit, rollback, close) is the model. */
module Gateway {

  datatype Option<T> = None | Some(value: T)

  // ---------------------------------------------------------------------------
  // Values and `_to_jsonable`

  /** A value as the driver returns it in a row. Floats, temporal and decimal
      values carry the text Python gives for them. `Other` is any further kind the
      driver can hand back, such as `bytes` for a BLOB, `timedelta` for a TIME
      column or `set` for a SET column, by its type name and its text. */
  datatype Value =
    | Null
    | Bool(b: bool)
    | Int(i: int)
    | Float(repr: string)
    | Text(s: string)
    | Date(text: string)
    | DateTime(text: string)
    | Time(text: string)
    | Decimal(text: string)
    | Other(typeName: string, repr: string)

  /** `isinstance(val, (date, datetime, time, Decimal))` */
  predicate Convertible(v: Value) {
    v.Date? || v.DateTime? || v.Time? || v.Decimal?
  }

  /** Values the JSON encoder writes out: None, booleans, numbers and text. On any
      other value it raises `TypeError`. */
  predicate Encodable(v: Value) {
    v.Null? || v.Bool? || v.Int? || v.Float? || v.Text?
  }

  /** `str(val)` for the four kinds `_to_jsonable` converts. */
  function StrOf(v: Value): string
    requires Convertible(v)
  {
    match v
    case Date(t) => t
    case DateTime(t) => t
    case Time(t) => t
    case Decimal(d) => d
  }

  /** `_to_jsonable`: the four convertible kinds become their text, every other
      value is returned unchanged, so the result is encodable exactly when the
      value was not of a kind outside the encoder's reach. */
  function ToJsonable(v: Value): (r: Value)
    ensures !Convertible(r)
    ensures Convertible(v) ==> r == Text(StrOf(v))
    ensures !Convertible(v) ==> r == v
    ensures Encodable(r) <==> !v.Other?
  {
    if Convertible(v) then Text(StrOf(v)) else v
  }

  /** Converting twice is converting once. */
  lemma ToJsonableIdempotent(v: Value)
    ensures ToJsonable(ToJsonable(v)) == ToJsonable(v)
  {
  }

  // ---------------------------------------------------------------------------
  // Result-set rows: `dict(zip(cols, (_to_jsonable(v) for v in row)))`

  function Min(a: int, b: int): int {
    if a <= b then a else b
  }

  /** `zip` stops at the shorter input; pairs are inserted left to right, so a
      repeated column name keeps the value of its last occurrence. */
  function RowDict(cols: seq<string>, row: seq<Value>): (d: map<string, Value>)
    ensures forall k :: k in d ==> !Convertible(d[k])
    decreases |cols|
  {
    var n := Min(|cols|, |row|);
    if n == 0 then map[]
    else RowDict(cols[..n - 1], row[..n - 1])[cols[n - 1] := ToJsonable(row[n - 1])]
  }

  /** A row without values of a kind the encoder cannot take gives a dictionary
      the encoder can write out. */
  lemma {:induction false} RowDictEncodable(cols: seq<string>, row: seq<Value>)
    requires forall j :: 0 <= j < |row| ==> !row[j].Other?
    ensures forall k :: k in RowDict(cols, row) ==> Encodable(RowDict(cols, row)[k])
    decreases |cols|
  {
    var n := Min(|cols|, |row|);
    if n > 0 {
      RowDictEncodable(cols[..n - 1], row[..n - 1]);
      assert !row[n - 1].Other?;
    }
  }

  /** The keys of a row's dictionary are the column names zip reaches. */
  lemma {:induction false} RowDictKeys(cols: seq<string>, row: seq<Value>, k: string)
    ensures k in RowDict(cols, row) <==> exists i :: 0 <= i < Min(|cols|, |row|) && cols[i] == k
    decreases |cols|
  {
    var n := Min(|cols|, |row|);
    if n > 0 {
      RowDictKeys(cols[..n - 1], row[..n - 1], k);
      if k in RowDict(cols, row) && k != cols[n - 1] {
        var i :| 0 <= i < n - 1 && cols[..n - 1][i] == k;
        assert cols[i] == k;
      }
      if exists i :: 0 <= i < n && cols[i] == k {
        var i :| 0 <= i < n && cols[i] == k;
        if i < n - 1 {
          assert cols[..n - 1][i] == k;
        }
      }
    }
  }

  /** A column whose name does not recur later in the row maps to its own value, converted. */
  lemma {:induction false} RowDictValue(cols: seq<string>, row: seq<Value>, i: nat)
    requires i < Min(|cols|, |row|)
    requires forall j :: i < j < Min(|cols|, |row|) ==> cols[j] != cols[i]
    ensures cols[i] in RowDict(cols, row)
    ensures RowDict(cols, row)[cols[i]] == ToJsonable(row[i])
    decreases |cols|
  {
    var n := Min(|cols|, |row|);
    if i < n - 1 {
      var c := cols[..n - 1];
      var r := row[..n - 1];
      assert forall j :: i < j < Min(|c|, |r|) ==> c[j] == cols[j];
      RowDictValue(c, r, i);
      assert c[i] == cols[i] && r[i] == row[i];
    }
  }

  /** With distinct column names and a full row, each column maps to its own value. */
  lemma RowDictOfDistinct(cols: seq<string>, row: seq<Value>)
    requires |row| == |cols|
    requires forall a, b :: 0 <= a < b < |cols| ==> cols[a] != cols[b]
    ensures forall i :: 0 <= i < |cols| ==> cols[i] in RowDict(cols, row) && RowDict(cols, row)[cols[i]] == ToJsonable(row[i])
    ensures forall k :: k in RowDict(cols, row) ==> k in cols
  {
    forall i | 0 <= i < |cols|
      ensures cols[i] in RowDict(cols, row) && RowDict(cols, row)[cols[i]] == ToJsonable(row[i])
    {
      RowDictValue(cols, row, i);
    }
    forall k | k in RowDict(cols, row)
      ensures k in cols
    {
      RowDictKeys(cols, row, k);
    }
  }

  // ---------------------------------------------------------------------------
  // The driver, as an input

  /** One entry of `cursor.description`; its first field is the column name. */
  datatype ColumnDesc = ColumnDesc(name: string, typeCode: int)

  /** An exception raised by the driver. `errno` is optional, as the attribute may
      be None in Python; the driver itself is not part of this model. */
  datatype DriverError =
    | MySqlError(errno: Option<int>, msg: string)
    | OtherError(text: string)

  /** What the driver does with one statement: either it runs, leaving a
      description (empty when the statement returns no rows), the rows to fetch and
      a row count, or it raises. */
  datatype Outcome =
    | Executed(description: seq<ColumnDesc>, rows: seq<seq<Value>>, rowcount: int)
    | Raised(error: DriverError)

  /** The four ways out of the `try` block: a result set, a row count, an
      exception from the driver, and the `TypeError` of `jsonify` on a result set
      holding a value it cannot encode. */
  datatype Branch = ResultSetBranch | AffectedBranch | ErrorBranch | EncodeErrorBranch

  /** The branches that end in `conn.rollback()` and a 400 reply. */
  predicate RollsBack(b: Branch) {
    b == ErrorBranch || b == EncodeErrorBranch
  }

  /** Every value of every row's dictionary can be encoded. */
  predicate AllEncodable(data: seq<map<string, Value>>) {
    forall i, k :: 0 <= i < |data| && k in data[i] ==> Encodable(data[i][k])
  }

  function BranchOf(o: Outcome): (b: Branch)
    ensures b == ErrorBranch <==> o.Raised?
    ensures b == AffectedBranch <==> o.Executed? && o.description == []
    ensures b == ResultSetBranch <==>
      o.Executed? && o.description != [] && AllEncodable(RowDicts(ColumnNames(o.description), o.rows))
    ensures b == EncodeErrorBranch <==>
      o.Executed? && o.description != [] && !AllEncodable(RowDicts(ColumnNames(o.description), o.rows))
  {
    match o
    case Raised(_) => ErrorBranch
    case Executed(d, rows, _) =>
      if d == [] then AffectedBranch
      else if AllEncodable(RowDicts(ColumnNames(d), rows)) then ResultSetBranch
      else EncodeErrorBranch
  }

  // ---------------------------------------------------------------------------
  // Error text: f"{e.errno} {e.msg}" or str(e)

  function DigitChar(d: nat): (c: char)
    requires d < 10
    ensures '0' <= c <= '9' && c as int - '0' as int == d
  {
    ('0' as int + d) as char
  }

  /** Decimal digits of n, most significant first. */
  function NatToString(n: nat): (s: string)
    ensures s != [] && forall i :: 0 <= i < |s| ==> '0' <= s[i] <= '9'
    decreases n
  {
    if n < 10 then [DigitChar(n)] else NatToString(n / 10) + [DigitChar(n % 10)]
  }

  /** `str` of a Python int. */
  function IntToString(i: int): (s: string)
    ensures s != [] && ' ' !in s
    ensures s[0] == '-' || '0' <= s[0] <= '9'
  {
    if i < 0 then "-" + NatToString(-i) else NatToString(i)
  }

  /** `f"{errno}"`. Should an error carry no errno, Python formats it as "None". */
  function ErrnoText(errno: Option<int>): (s: string)
    ensures s != [] && ' ' !in s
  {
    match errno
    case None => "None"
    case Some(i) => IntToString(i)
  }

  /** The `error` field of a failure reply. */
  function ErrorText(e: DriverError): string {
    match e
    case MySqlError(errno, msg) => ErrnoText(errno) + " " + msg
    case OtherError(text) => text
  }

  /** Reads decimal digits back; a character that is not a digit counts as 0. */
  function ParseNat(s: string): (n: nat)
    decreases |s|
  {
    if s == [] then 0
    else
      var c := s[|s| - 1];
      ParseNat(s[..|s| - 1]) * 10 + (if '0' <= c <= '9' then c as int - '0' as int else 0)
  }

  function ParseInt(s: string): int {
    if s != [] && s[0] == '-' then -(ParseNat(s[1..]) as int) else ParseNat(s)
  }

  function ReadErrno(s: string): Option<int> {
    if s == "None" then None else Some(ParseInt(s))
  }

  /** Splits at the first space: the text before it and the text after it. */
  function SplitAtSpace(s: string): (r: (string, string))
    ensures ' ' !in r.0
    decreases |s|
  {
    if s == [] then ([], [])
    else if s[0] == ' ' then ([], s[1..])
    else var (a, b) := SplitAtSpace(s[1..]); ([s[0]] + a, b)
  }

  /** Recovers errno and message from a driver error's text. */
  function ReadDriverError(text: string): (Option<int>, string) {
    var (tok, msg) := SplitAtSpace(text);
    (ReadErrno(tok), msg)
  }

  lemma {:induction false} NatRoundTrip(n: nat)
    ensures ParseNat(NatToString(n)) == n
    decreases n
  {
    if n >= 10 {
      var s := NatToString(n);
      assert s[..|s| - 1] == NatToString(n / 10);
      NatRoundTrip(n / 10);
    }
  }

  lemma IntRoundTrip(i: int)
    ensures ParseInt(IntToString(i)) == i
  {
    if i < 0 {
      assert IntToString(i)[1..] == NatToString(-i);
      NatRoundTrip(-i);
    } else {
      NatRoundTrip(i);
    }
  }

  lemma ErrnoRoundTrip(errno: Option<int>)
    ensures ReadErrno(ErrnoText(errno)) == errno
  {
    if errno.Some? {
      var s := IntToString(errno.value);
      assert s != "None" by {
        assert s[0] != 'N';
      }
      IntRoundTrip(errno.value);
    }
  }

  lemma {:induction false} SplitAfterToken(tok: string, rest: string)
    requires ' ' !in tok
    ensures SplitAtSpace(tok + " " + rest) == (tok, rest)
    decreases |tok|
  {
    var s := tok + " " + rest;
    if tok == [] {
      assert s[1..] == rest;
    } else {
      assert s[0] == tok[0] && s[1..] == tok[1..] + " " + rest;
      SplitAfterToken(tok[1..], rest);
      assert [tok[0]] + tok[1..] == tok;
    }
  }

  /** The "<errno> <msg>" text loses nothing: errno and message can be read back,
      whatever the message holds (spaces included). */
  lemma DriverErrorRoundTrip(errno: Option<int>, msg: string)
    ensures ReadDriverError(ErrorText(MySqlError(errno, msg))) == (errno, msg)
  {
    SplitAfterToken(ErrnoText(errno), msg);
    ErrnoRoundTrip(errno);
  }

  // ---------------------------------------------------------------------------
  // Requests and replies

  /** The `query` and `db` fields of the JSON payload; None when absent. */
  datatype ExecRequest = ExecRequest(query: Option<string>, db: Option<string>)

  /** Python truthiness of an optional string: present and non-empty. */
  predicate Truthy(s: Option<string>) {
    s.Some? && s.value != []
  }

  /** The JSON bodies the gateway sends. */
  datatype Body =
    | ResultSet(data: seq<map<string, Value>>, columns: seq<string>)  // success, type "resultset"
    | Affected(rowsAffected: int)                                     // success, type "ok"
    | Failure(error: string)                                          // success false
    | ParamError(error: string)                                       // no success field

  datatype Reply = Reply(status: int, body: Body)

  const QueryRequired := "query is required"
  const DbRequired := "db is required"
  const SchemaDbRequired := "db query param required"
  const ColumnsParamsRequired := "db and table query params required"

  /** `[d[0] for d in cur.description]` */
  function ColumnNames(desc: seq<ColumnDesc>): (cols: seq<string>)
    ensures |cols| == |desc| && forall i :: 0 <= i < |desc| ==> cols[i] == desc[i].name
  {
    seq(|desc|, i requires 0 <= i < |desc| => desc[i].name)
  }

  /** `[dict(zip(cols, ...)) for row in rows]` */
  function RowDicts(cols: seq<string>, rows: seq<seq<Value>>): (data: seq<map<string, Value>>)
    ensures |data| == |rows| && forall i :: 0 <= i < |rows| ==> data[i] == RowDict(cols, rows[i])
  {
    seq(|rows|, i requires 0 <= i < |rows| => RowDict(cols, rows[i]))
  }

  /** The reply `/execute` sends, as a function of the request and the driver's
      outcome. `typeError` is the text of the `TypeError` the JSON encoder raises
      on a value it cannot encode; the encoder belongs to Flask, which is not part
      of this model. */
  function ExecuteReply(req: ExecRequest, o: Outcome, typeError: string): (r: Reply)
    ensures r.status == 400 <==> r.body.Failure?
    ensures r.status == 200 || r.status == 400
    ensures !Truthy(req.query) ==> r == Reply(400, Failure(QueryRequired))
    ensures Truthy(req.query) && !Truthy(req.db) ==> r == Reply(400, Failure(DbRequired))
    ensures Truthy(req.query) && Truthy(req.db) ==>
      && (r.body.ResultSet? <==> BranchOf(o) == ResultSetBranch)
      && (r.body.Affected? <==> BranchOf(o) == AffectedBranch)
      && (r.body.Failure? <==> RollsBack(BranchOf(o)))
  {
    if !Truthy(req.query) then Reply(400, Failure(QueryRequired))
    else if !Truthy(req.db) then Reply(400, Failure(DbRequired))
    else match o
      case Raised(e) => Reply(400, Failure(ErrorText(e)))
      case Executed(desc, rows, rowcount) =>
        if desc != [] then
          var cols := ColumnNames(desc);
          var data := RowDicts(cols, rows);
          if AllEncodable(data) then Reply(200, ResultSet(data, cols))
          else Reply(400, Failure(typeError))
        else Reply(200, Affected(rowcount))
  }

  /** What each successful or failing reply carries, for an admitted request. */
  lemma ExecuteReplyContents(req: ExecRequest, o: Outcome, typeError: string)
    requires Truthy(req.query) && Truthy(req.db)
    ensures var r := ExecuteReply(req, o, typeError);
      && (o.Raised? ==> r.body.error == ErrorText(o.error))
      && (BranchOf(o) == EncodeErrorBranch ==> r.body.error == typeError)
      && (o.Executed? && o.description == [] ==> r.body.rowsAffected == o.rowcount)
      && (BranchOf(o) == ResultSetBranch ==>
            && r.body.columns == ColumnNames(o.description)
            && |r.body.data| == |o.rows|
            && (forall i :: 0 <= i < |o.rows| ==> r.body.data[i] == RowDict(r.body.columns, o.rows[i])))
  {
  }

  /** A result set reaches the client only when every value in it can be encoded,
      and no date, time or decimal is left unconverted. */
  lemma ResultSetIsJson(req: ExecRequest, o: Outcome, typeError: string)
    requires ExecuteReply(req, o, typeError).body.ResultSet?
    ensures var d := ExecuteReply(req, o, typeError).body.data;
      forall i, k :: 0 <= i < |d| && k in d[i] ==> Encodable(d[i][k]) && !Convertible(d[i][k])
  {
  }

  /** Rows whose values are all of kinds `_to_jsonable` leaves encodable always give
      a 200 result set. */
  lemma EncodableRowsSucceed(req: ExecRequest, o: Outcome, typeError: string)
    requires Truthy(req.query) && Truthy(req.db)
    requires o.Executed? && o.description != []
    requires forall i, j :: 0 <= i < |o.rows| && 0 <= j < |o.rows[i]| ==> !o.rows[i][j].Other?
    ensures ExecuteReply(req, o, typeError).status == 200
    ensures ExecuteReply(req, o, typeError).body.ResultSet?
  {
    var data := RowDicts(ColumnNames(o.description), o.rows);
    forall i | 0 <= i < |data|
      ensures forall k :: k in data[i] ==> Encodable(data[i][k])
    {
      RowDictEncodable(ColumnNames(o.description), o.rows[i]);
    }
  }

  /** A value `_to_jsonable` passes through and the encoder cannot take, in a
      column whose name does not recur later, makes the handler roll back and
      answer 400 with the encoder's error text. */
  lemma UnencodableValueFails(req: ExecRequest, o: Outcome, typeError: string, i: nat, c: nat)
    requires Truthy(req.query) && Truthy(req.db)
    requires o.Executed? && o.description != [] && i < |o.rows|
    requires c < |o.description| && c < |o.rows[i]| && o.rows[i][c].Other?
    requires forall j :: c < j < Min(|o.description|, |o.rows[i]|) ==> o.description[j].name != o.description[c].name
    ensures BranchOf(o) == EncodeErrorBranch
    ensures ExecuteReply(req, o, typeError) == Reply(400, Failure(typeError))
  {
    var cols := ColumnNames(o.description);
    var data := RowDicts(cols, o.rows);
    RowDictValue(cols, o.rows[i], c);
    assert !Encodable(data[i][cols[c]]);
  }

  /** With distinct column names and full rows, each row's dictionary pairs every
      column with that row's converted value and holds no other key. */
  lemma ResultSetRows(req: ExecRequest, o: Outcome, typeError: string, i: nat)
    requires Truthy(req.query) && Truthy(req.db)
    requires BranchOf(o) == ResultSetBranch && i < |o.rows|
    requires |o.rows[i]| == |o.description|
    requires forall a, b :: 0 <= a < b < |o.description| ==> o.description[a].name != o.description[b].name
    ensures var r := ExecuteReply(req, o, typeError).body;
      && (forall c :: 0 <= c < |o.description| ==>
            o.description[c].name in r.data[i] && r.data[i][o.description[c].name] == ToJsonable(o.rows[i][c]))
      && (forall k :: k in r.data[i] ==> k in r.columns)
  {
    var cols := ColumnNames(o.description);
    RowDictOfDistinct(cols, o.rows[i]);
  }

  // ---------------------------------------------------------------------------
  // The parameter checks of `/schema` and `/columns`

  /** `/schema`: the 400 reply, if `db` is missing or empty; None lets the request through. */
  function SchemaGate(db: Option<string>): (r: Option<Reply>)
    ensures r.Some? <==> !Truthy(db)
    ensures r.Some? ==> r.value == Reply(400, ParamError(SchemaDbRequired))
  {
    if !Truthy(db) then Some(Reply(400, ParamError(SchemaDbRequired))) else None
  }

  /** `/columns`: the 400 reply, unless both `db` and `table` are present and non-empty. */
  function ColumnsGate(db: Option<string>, table: Option<string>): (r: Option<Reply>)
    ensures r.Some? <==> !Truthy(db) || !Truthy(table)
    ensures r.Some? ==> r.value == Reply(400, ParamError(ColumnsParamsRequired))
  {
    if !(Truthy(db) && Truthy(table)) then Some(Reply(400, ParamError(ColumnsParamsRequired))) else None
  }

  // ---------------------------------------------------------------------------
  // Connection and cursor

  /** A database connection: what was done to it, and its open cursors. */
  class Connection {
    const database: string
    var committed: bool
    var rolledBack: bool
    var closed: bool
    var openCursors: set<Cursor>

    /** `get_connection(database=db)` */
    constructor (database: string)
      ensures this.database == database
      ensures !committed && !rolledBack && !closed && openCursors == {}
    {
      this.database := database;
      committed := false;
      rolledBack := false;
      closed := false;
      openCursors := {};
    }

    /** `conn.cursor()` */
    method OpenCursor() returns (cur: Cursor)
      modifies this
      ensures fresh(cur) && cur.conn == this && !cur.closed
      ensures cur.description == [] && cur.pending == []
      ensures openCursors == old(openCursors) + {cur}
      ensures committed == old(committed) && rolledBack == old(rolledBack) && closed == old(closed)
    {
      cur := new Cursor(this);
      openCursors := openCursors + {cur};
    }

    /** `conn.commit()` */
    method Commit()
      modifies this
      ensures committed
      ensures rolledBack == old(rolledBack) && closed == old(closed) && openCursors == old(openCursors)
    {
      committed := true;
    }

    /** `conn.rollback()` */
    method Rollback()
      modifies this
      ensures rolledBack
      ensures committed == old(committed) && closed == old(closed) && openCursors == old(openCursors)
    {
      rolledBack := true;
    }

    /** `conn.close()` */
    method Close()
      modifies this
      ensures closed
      ensures committed == old(committed) && rolledBack == old(rolledBack) && openCursors == old(openCursors)
    {
      closed := true;
    }
  }

  /** A cursor: the description, row count and unfetched rows of its last statement. */
  class Cursor {
    const conn: Connection
    var closed: bool
    var description: seq<ColumnDesc>
    var rowcount: int
    var pending: seq<seq<Value>>

    constructor (conn: Connection)
      ensures this.conn == conn && !closed && description == [] && pending == [] && rowcount == -1
    {
      this.conn := conn;
      closed := false;
      description := [];
      rowcount := -1;
      pending := [];
    }

    /** `cur.execute(query)`: the driver's outcome decides what the cursor holds;
        an exception is returned rather than raised. */
    method Execute(o: Outcome) returns (err: Option<DriverError>)
      modifies this
      ensures err.Some? <==> o.Raised?
      ensures o.Raised? ==> err.value == o.error && description == old(description)
                            && pending == old(pending) && rowcount == old(rowcount)
      ensures o.Executed? ==> description == o.description && pending == o.rows && rowcount == o.rowcount
      ensures closed == old(closed)
    {
      match o
      case Raised(e) =>
        err := Some(e);
      case Executed(desc, rows, count) =>
        description := desc;
        pending := rows;
        rowcount := count;
        err := None;
    }

    /** `cur.fetchall()` */
    method FetchAll() returns (rows: seq<seq<Value>>)
      modifies this
      ensures rows == old(pending) && pending == []
      ensures description == old(description) && rowcount == old(rowcount) && closed == old(closed)
    {
      rows := pending;
      pending := [];
    }

    /** `cur.close()` */
    method Close()
      modifies this, conn
      ensures closed
      ensures conn.openCursors == old(conn.openCursors) - {this}
      ensures conn.committed == old(conn.committed) && conn.rolledBack == old(conn.rolledBack)
      ensures conn.closed == old(conn.closed)
      ensures description == old(description) && pending == old(pending) && rowcount == old(rowcount)
    {
      closed := true;
      conn.openCursors := conn.openCursors - {this};
    }
  }

  // ---------------------------------------------------------------------------
  // The handler

  /** The `/execute` handler. `conn` is the connection it opened, or null when a
      missing parameter stopped it first. `typeError` is as for ExecuteReply. */
  method Execute(req: ExecRequest, o: Outcome, typeError: string) returns (reply: Reply, conn: Connection?)
    ensures reply == ExecuteReply(req, o, typeError)
    ensures conn == null <==> !Truthy(req.query) || !Truthy(req.db)
    ensures conn != null ==>
      && fresh(conn)
      && conn.database == req.db.value
      && conn.closed && conn.openCursors == {}
      && (conn.committed <==> BranchOf(o) == AffectedBranch)
      && (conn.rolledBack <==> RollsBack(BranchOf(o)))
  {
    if !Truthy(req.query) {
      return Reply(400, Failure(QueryRequired)), null;
    }
    if !Truthy(req.db) {
      return Reply(400, Failure(DbRequired)), null;
    }
    conn := new Connection(req.db.value);
    var cur := conn.OpenCursor();
    var err := cur.Execute(o);
    if err.None? {
      if cur.description != [] {
        var cols := ColumnNames(cur.description);
        var rows := cur.FetchAll();
        var data := RowDicts(cols, rows);
        if AllEncodable(data) {
          reply := Reply(200, ResultSet(data, cols));
        } else {
          conn.Rollback();
          reply := Reply(400, Failure(typeError));
        }
      } else {
        var affected := cur.rowcount;
        conn.Commit();
        reply := Reply(200, Affected(affected));
      }
    } else {
      conn.Rollback();
      reply := Reply(400, Failure(ErrorText(err.value)));
    }
    cur.Close();
    conn.Close();
  }

  /** Once a connection is opened, a reply is a failure exactly on the branches that
      roll back, and a success never rolls back. */
  lemma FailureIffRollback(req: ExecRequest, o: Outcome, typeError: string)
    requires Truthy(req.query) && Truthy(req.db)
    ensures ExecuteReply(req, o, typeError).status == 400 <==> RollsBack(BranchOf(o))
    ensures ExecuteReply(req, o, typeError).status == 200 <==> !RollsBack(BranchOf(o))
  {
  }
}

=== FILE: normalizer.dfy ===
/** `clean_sql_query`: turns raw model output into a single-line SQL statement.
    Each of its five `re.sub` calls is modelled by the exact matcher of its pattern
    and a left-to-right scan, as Python's `re.sub` performs it. */
module Normalizer {
  import opened Text

  /** The five patterns, in the order the cleaner applies them. */
  datatype Pattern =
    | OpenSqlFence  // ^```sql\s*\n?   flags IGNORECASE | MULTILINE
    | OpenFence     // ^```\s*\n?      flag MULTILINE
    | CloseFence    // \n?```$         flag MULTILINE
    | BlankLines    // \n\s*\n
    | SpaceRun      // \s+

  /** What `re.sub` puts in place of each match. */
  function Replacement(p: Pattern): string {
    match p
    case BlankLines => "\n"
    case SpaceRun => " "
    case _ => ""
  }

  /** `^` under MULTILINE: start of the string or just after a line feed. */
  predicate AtLineStart(s: string, i: nat)
    requires i <= |s|
  {
    i == 0 || s[i - 1] == '\n'
  }

  /** `$` under MULTILINE: end of the string or just before a line feed. */
  predicate AtLineEnd(s: string, j: nat)
    requires j <= |s|
  {
    j == |s| || s[j] == '\n'
  }

  predicate FenceAt(s: string, i: nat) {
    i + 3 <= |s| && s[i] == '`' && s[i + 1] == '`' && s[i + 2] == '`'
  }

  /** `sql` under IGNORECASE; Python's case folding also lets `s` match U+017F (long s). */
  predicate SqlTagAt(s: string, i: nat) {
    && i + 3 <= |s|
    && (s[i] == 's' || s[i] == 'S' || s[i] == '\U{17F}')
    && (s[i + 1] == 'q' || s[i + 1] == 'Q')
    && (s[i + 2] == 'l' || s[i + 2] == 'L')
  }

  /** Where greedy `\s*` starting at `i` stops. */
  function SpaceRunEnd(s: string, i: nat): (j: nat)
    requires i <= |s|
    ensures i <= j <= |s|
    ensures forall k :: i <= k < j ==> IsSpace(s[k])
    ensures j == |s| || !IsSpace(s[j])
    decreases |s| - i
  {
    if i < |s| && IsSpace(s[i]) then SpaceRunEnd(s, i + 1) else i
  }

  /** The last line feed in `s[lo..hi]`, or -1: where `\s*\n` ends once the greedy
      `\s*` has backtracked. */
  function LastNewline(s: string, lo: nat, hi: nat): (k: int)
    requires lo <= hi <= |s|
    ensures k == -1 || (lo <= k < hi && s[k] == '\n')
    ensures forall j :: lo <= j < hi && j > k ==> s[j] != '\n'
    decreases hi
  {
    if hi == lo then -1 else if s[hi - 1] == '\n' then hi - 1 else LastNewline(s, lo, hi - 1)
  }

  /** Length of the match of `p` starting at `i`, and 0 when `p` does not match
      there. No pattern matches the empty string. */
  function MatchLength(p: Pattern, s: string, i: nat): (n: nat)
    requires i < |s|
    ensures i + n <= |s|
  {
    match p
    case OpenSqlFence =>
      if AtLineStart(s, i) && FenceAt(s, i) && SqlTagAt(s, i + 3) then SpaceRunEnd(s, i + 6) - i else 0
    case OpenFence =>
      if AtLineStart(s, i) && FenceAt(s, i) then SpaceRunEnd(s, i + 3) - i else 0
    case CloseFence =>
      if s[i] == '\n' && FenceAt(s, i + 1) && AtLineEnd(s, i + 4) then 4
      else if FenceAt(s, i) && AtLineEnd(s, i + 3) then 3
      else 0
    case BlankLines =>
      if s[i] == '\n' then
        var k := LastNewline(s, i + 1, SpaceRunEnd(s, i + 1));
        if k < 0 then 0 else k + 1 - i
      else 0
    case SpaceRun =>
      SpaceRunEnd(s, i) - i
  }

  // ---------------------------------------------------------------------------
  // The scan of `re.sub`

  /** A match table for `s`: a match length for every position, none running past the end. */
  predicate Table(s: string, t: seq<nat>) {
    |t| == |s| && forall k :: 0 <= k < |t| ==> k + t[k] <= |s|
  }

  /** The match lengths of `p` at every position of `s`. The anchors see all of `s`,
      so a position's entry does not depend on where the scan started. */
  function Matches(p: Pattern, s: string): (t: seq<nat>)
    ensures Table(s, t)
    ensures forall k :: 0 <= k < |s| ==> t[k] == MatchLength(p, s, k)
  {
    seq(|s|, k requires 0 <= k < |s| => MatchLength(p, s, k))
  }

  /** `re.sub` from position `i`: where nothing matches, the character is copied;
      where something does, the replacement is emitted and the match skipped. */
  function Scan(s: string, t: seq<nat>, rep: string, i: nat): string
    requires Table(s, t) && i <= |s|
    decreases |s| - i
  {
    if i == |s| then []
    else if t[i] == 0 then [s[i]] + Scan(s, t, rep, i + 1)
    else rep + Scan(s, t, rep, i + t[i])
  }

  /** `re.sub(p, Replacement(p), s)` */
  function Sub(p: Pattern, s: string): string {
    Scan(s, Matches(p, s), Replacement(p), 0)
  }

  /** The three fence removals (frontend/app.py lines 17-19). */
  function StripFences(s: string): string {
    Sub(CloseFence, Sub(OpenFence, Sub(OpenSqlFence, s)))
  }

  /** The two spacing rewrites (frontend/app.py lines 25-26). */
  function CollapseSpacing(s: string): string {
    Sub(SpaceRun, Sub(BlankLines, s))
  }

  /** Every whitespace character is a plain space and no two are adjacent. */
  predicate SingleSpaced(s: string) {
    && (forall i :: 0 <= i < |s| && IsSpace(s[i]) ==> s[i] == ' ')
    && (forall i :: 0 <= i < |s| - 1 ==> !SpacePair(s, i))
  }

  /** Whitespace at `i` and at `i + 1`. */
  predicate SpacePair(s: string, i: nat)
    requires i + 1 < |s|
  {
    IsSpace(s[i]) && IsSpace(s[i + 1])
  }

  /** One line, single spaces, nothing to trim. */
  predicate SingleLine(s: string) {
    NoSpaceAtEnds(s) && SingleSpaced(s)
  }

  predicate EndsWithSemicolon(s: string) {
    s != [] && s[|s| - 1] == ';'
  }

  /** Appends the terminator unless it is already there. */
  function Terminated(s: string): string {
    if EndsWithSemicolon(s) then s else s + ";"
  }

  /** `clean_sql_query` */
  function CleanSqlQuery(raw: string): (r: string)
    ensures raw == [] ==> r == raw
    ensures raw != [] ==> EndsWithSemicolon(r) && SingleLine(r)
    ensures '\n' !in r && '\t' !in r
  {
    if raw == [] then raw
    else
      var u := Strip(StripFences(raw));
      CleanShape(u);
      Terminated(CollapseSpacing(u))
  }

  // ---------------------------------------------------------------------------
  // Facts about the scan, for any table

  /** A stretch of the scan that meets no match copies its input. */
  lemma {:induction false} ScanCopies(s: string, t: seq<nat>, rep: string, i: nat, j: nat)
    requires Table(s, t) && i <= j <= |s|
    requires forall k :: i <= k < j ==> t[k] == 0
    ensures Scan(s, t, rep, i) == s[i..j] + Scan(s, t, rep, j)
    decreases j - i
  {
    if i < j {
      var rest := Scan(s, t, rep, j);
      ScanCopies(s, t, rep, i + 1, j);
      assert Scan(s, t, rep, i) == [s[i]] + (s[i + 1..j] + rest);
      assert [s[i]] + (s[i + 1..j] + rest) == ([s[i]] + s[i + 1..j]) + rest;
      assert [s[i]] + s[i + 1..j] == s[i..j];
    }
  }

  /** A character in neither the input nor the replacement is not in the output. */
  lemma {:induction false} ScanAddsNothing(s: string, t: seq<nat>, rep: string, i: nat, c: char)
    requires Table(s, t) && i <= |s| && c !in s && c !in rep
    ensures c !in Scan(s, t, rep, i)
    decreases |s| - i
  {
    if i < |s| {
      if t[i] == 0 {
        var rest := Scan(s, t, rep, i + 1);
        ScanAddsNothing(s, t, rep, i + 1, c);
        assert s[i] in s;
        NotInConcat(c, [s[i]], rest);
        assert Scan(s, t, rep, i) == [s[i]] + rest;
      } else {
        var rest := Scan(s, t, rep, i + t[i]);
        ScanAddsNothing(s, t, rep, i + t[i], c);
        NotInConcat(c, rep, rest);
        assert Scan(s, t, rep, i) == rep + rest;
      }
    }
  }

  lemma NotInConcat(c: char, a: string, b: string)
    requires c !in a && c !in b
    ensures c !in a + b
  {
  }

  /** The match at `k` covers whitespace only. */
  predicate MatchAllSpace(s: string, t: seq<nat>, k: nat)
    requires Table(s, t) && k < |s|
  {
    forall l :: k <= l < k + t[k] ==> IsSpace(s[l])
  }

  /** Every match covers whitespace only. */
  predicate SpaceMatches(s: string, t: seq<nat>)
    requires Table(s, t)
  {
    forall k :: 0 <= k < |s| ==> MatchAllSpace(s, t, k)
  }

  /** A scan starting at a non-space character keeps it in front. */
  lemma ScanKeepsFirst(s: string, t: seq<nat>, rep: string, i: nat)
    requires Table(s, t) && SpaceMatches(s, t) && i < |s| && !IsSpace(s[i])
    ensures Scan(s, t, rep, i) != [] && Scan(s, t, rep, i)[0] == s[i]
  {
    assert MatchAllSpace(s, t, i);
  }

  /** A scan over a string that ends in a non-space character keeps that character
      last: a match is all whitespace, so it ends before it. */
  lemma {:induction false} ScanKeepsLast(s: string, t: seq<nat>, rep: string, i: nat)
    requires Table(s, t) && SpaceMatches(s, t) && i < |s| && !IsSpace(s[|s| - 1])
    ensures var r := Scan(s, t, rep, i); r != [] && r[|r| - 1] == s[|s| - 1]
    decreases |s| - i
  {
    if t[i] == 0 {
      if i + 1 < |s| {
        ScanKeepsLast(s, t, rep, i + 1);
      }
    } else {
      assert MatchAllSpace(s, t, i);
      assert IsSpace(s[i + t[i] - 1]);
      ScanKeepsLast(s, t, rep, i + t[i]);
    }
  }

  /** A whitespace-only rewrite keeps a string's non-space ends. */
  lemma ScanKeepsEnds(s: string, t: seq<nat>, rep: string)
    requires Table(s, t) && SpaceMatches(s, t) && NoSpaceAtEnds(s)
    ensures NoSpaceAtEnds(Scan(s, t, rep, 0)) && (Scan(s, t, rep, 0) == [] <==> s == [])
  {
    if s != [] {
      ScanKeepsFirst(s, t, rep, 0);
      ScanKeepsLast(s, t, rep, 0);
    }
  }

  // ---------------------------------------------------------------------------
  // The spacing patterns

  /** The patterns whose matches consist of whitespace only. */
  predicate SpacingPattern(p: Pattern) {
    p == BlankLines || p == SpaceRun
  }

  lemma MatchIsSpace(p: Pattern, s: string, i: nat)
    requires SpacingPattern(p) && i < |s|
    ensures forall k :: i <= k < i + MatchLength(p, s, i) ==> IsSpace(s[k])
  {
  }

  lemma SpacingMatches(p: Pattern, s: string)
    requires SpacingPattern(p)
    ensures SpaceMatches(s, Matches(p, s))
  {
    var t := Matches(p, s);
    forall k | 0 <= k < |s|
      ensures MatchAllSpace(s, t, k)
    {
      MatchIsSpace(p, s, k);
    }
  }

  /** The table of `\s+`: every position's entry runs to the end of its whitespace run. */
  predicate RunTable(s: string, t: seq<nat>)
    requires Table(s, t)
  {
    forall k :: 0 <= k < |s| ==> k + t[k] == SpaceRunEnd(s, k)
  }

  lemma SpaceRunTable(s: string)
    ensures RunTable(s, Matches(SpaceRun, s))
  {
  }

  /** After `\s+` -> ' ' every whitespace run is one plain space. */
  lemma {:induction false} SpaceRunSingleSpaced(s: string, t: seq<nat>, i: nat)
    requires Table(s, t) && RunTable(s, t) && i <= |s|
    ensures SingleSpaced(Scan(s, t, " ", i))
    decreases |s| - i
  {
    if i < |s| {
      assert i + t[i] == SpaceRunEnd(s, i);
      if t[i] == 0 {
        var rest := Scan(s, t, " ", i + 1);
        SpaceRunSingleSpaced(s, t, i + 1);
        assert !IsSpace(s[i]);
        assert Scan(s, t, " ", i) == [s[i]] + rest;
        SingleSpacedCons(s[i], rest);
      } else {
        var j := i + t[i];
        var rest := Scan(s, t, " ", j);
        SpaceRunSingleSpaced(s, t, j);
        ScanAfterRun(s, t, i);
        assert Scan(s, t, " ", i) == [' '] + rest;
        SingleSpacedCons(' ', rest);
      }
    }
  }

  /** The scan resumes after a run on a non-space character, or at the end. */
  lemma ScanAfterRun(s: string, t: seq<nat>, i: nat)
    requires Table(s, t) && RunTable(s, t) && i < |s|
    ensures var rest := Scan(s, t, " ", i + t[i]); rest == [] || !IsSpace(rest[0])
  {
    var j := i + t[i];
    assert j == SpaceRunEnd(s, i);
    if j < |s| {
      assert !IsSpace(s[j]);
      assert j + t[j] == SpaceRunEnd(s, j);
      assert Scan(s, t, " ", j) == [s[j]] + Scan(s, t, " ", j + 1);
    }
  }

  /** A character in front keeps text single-spaced unless it is whitespace other
      than a space, or whitespace before whitespace. */
  lemma SingleSpacedCons(c: char, r: string)
    requires SingleSpaced(r)
    requires IsSpace(c) ==> c == ' ' && (r == [] || !IsSpace(r[0]))
    ensures SingleSpaced([c] + r)
  {
    var d := [c] + r;
    forall i | 0 <= i < |d| - 1
      ensures !SpacePair(d, i)
    {
      if i > 0 {
        assert d[i] == r[i - 1] && d[i + 1] == r[i];
        assert !SpacePair(r, i - 1);
      }
    }
  }

  /** `\s+` -> ' ' leaves text whose whitespace is already single plain spaces unchanged. */
  lemma {:induction false} SpaceRunKeepsSingleSpaced(s: string, t: seq<nat>, i: nat)
    requires Table(s, t) && RunTable(s, t) && i <= |s| && SingleSpaced(s)
    ensures Scan(s, t, " ", i) == s[i..]
    decreases |s| - i
  {
    if i < |s| {
      var rest := s[i + 1..];
      SpaceRunKeepsSingleSpaced(s, t, i + 1);
      if t[i] == 0 {
        assert Scan(s, t, " ", i) == [s[i]] + rest;
      } else {
        OneSpaceRun(s, i);
        assert Scan(s, t, " ", i) == " " + rest;
      }
      assert s[i..] == [s[i]] + rest;
    }
  }

  /** In single-spaced text a whitespace run is one plain space. */
  lemma OneSpaceRun(s: string, i: nat)
    requires SingleSpaced(s) && i < |s| && SpaceRunEnd(s, i) > i
    ensures s[i] == ' ' && SpaceRunEnd(s, i) == i + 1
  {
    assert IsSpace(s[i]);
    assert i + 1 == |s| || !SpacePair(s, i);
  }

  /** What the two spacing rewrites leave of text with nothing to trim. */
  lemma CleanShape(u: string)
    requires NoSpaceAtEnds(u)
    ensures var c := CollapseSpacing(u);
      && SingleLine(c) && (c == [] <==> u == [])
      && SingleLine(Terminated(c)) && EndsWithSemicolon(Terminated(c))
      && '\n' !in Terminated(c) && '\t' !in Terminated(c)
  {
    CleanShapeSpacing(u);
    var c := CollapseSpacing(u);
    NoLineBreaks(Terminated(c));
  }

  /** Single-spaced text holds no line feed and no tab. */
  lemma NoLineBreaks(s: string)
    requires SingleSpaced(s)
    ensures '\n' !in s && '\t' !in s
  {
    if '\n' in s {
      var i :| 0 <= i < |s| && s[i] == '\n';
      assert IsSpace(s[i]);
    }
    if '\t' in s {
      var i :| 0 <= i < |s| && s[i] == '\t';
      assert IsSpace(s[i]);
    }
  }

  lemma CleanShapeSpacing(u: string)
    requires NoSpaceAtEnds(u)
    ensures var c := CollapseSpacing(u);
      && SingleLine(c) && (c == [] <==> u == [])
      && SingleLine(c + ";")
  {
    SpacingMatches(BlankLines, u);
    ScanKeepsEnds(u, Matches(BlankLines, u), "\n");
    var b := Sub(BlankLines, u);
    var t := Matches(SpaceRun, b);
    SpacingMatches(SpaceRun, b);
    ScanKeepsEnds(b, t, " ");
    SpaceRunTable(b);
    SpaceRunSingleSpaced(b, t, 0);
    var c := Sub(SpaceRun, b);
    var d := c + ";";
    assert forall i :: 0 <= i < |d| - 1 ==> !SpacePair(d, i) by {
      forall i | 0 <= i < |d| - 1
        ensures !SpacePair(d, i)
      {
        if i + 1 < |c| {
          assert d[i] == c[i] && d[i + 1] == c[i + 1];
          assert !SpacePair(c, i);
        }
      }
    }
  }

  // ---------------------------------------------------------------------------
  // Text without backticks

  /** Where `p` matches nowhere, `re.sub` returns its input. */
  lemma SubWithoutMatch(p: Pattern, s: string)
    requires forall k :: 0 <= k < |s| ==> MatchLength(p, s, k) == 0
    ensures Sub(p, s) == s
  {
    ScanCopies(s, Matches(p, s), Replacement(p), 0, |s|);
    assert s[0..|s|] == s;
  }

  /** Where `p` matches at the start, for `n` characters, and nowhere after them,
      `re.sub` returns the replacement and the rest. */
  lemma SubAfterLeadingMatch(p: Pattern, s: string, n: nat)
    requires 0 < n <= |s| && MatchLength(p, s, 0) == n
    requires forall k :: n <= k < |s| ==> MatchLength(p, s, k) == 0
    ensures Sub(p, s) == Replacement(p) + s[n..]
  {
    var t := Matches(p, s);
    ScanCopies(s, t, Replacement(p), n, |s|);
    assert s[n..|s|] == s[n..];
  }

  /** Every fence pattern needs a backtick. */
  lemma FenceSubWithoutBacktick(p: Pattern, s: string)
    requires p in {OpenSqlFence, OpenFence, CloseFence} && '`' !in s
    ensures Sub(p, s) == s
  {
    forall k | 0 <= k < |s|
      ensures MatchLength(p, s, k) == 0
    {
      assert s[k] != '`';
    }
    SubWithoutMatch(p, s);
  }

  /** Text without a backtick passes through the three fence removals unchanged. */
  lemma StripFencesWithoutBacktick(s: string)
    requires '`' !in s
    ensures StripFences(s) == s
  {
    FenceSubWithoutBacktick(OpenSqlFence, s);
    FenceSubWithoutBacktick(OpenFence, s);
    FenceSubWithoutBacktick(CloseFence, s);
  }

  /** Cleaning one backtick-free line that has nothing to trim or collapse only
      appends the terminator, and only when it is missing: `SELECT 1;;` keeps both. */
  lemma CleanSingleLine(s: string)
    requires s != [] && '`' !in s && SingleLine(s)
    ensures CleanSqlQuery(s) == if EndsWithSemicolon(s) then s else s + ";"
  {
    StripFencesWithoutBacktick(s);
    StripNoSpaceAtEnds(s);
    SubWithoutMatch(BlankLines, s);
    SpaceRunTable(s);
    SpaceRunKeepsSingleSpaced(s, Matches(SpaceRun, s), 0);
    assert s[0..] == s;
  }

  /** Cleaning backtick-free text yields backtick-free text. */
  lemma CleanAddsNoBacktick(raw: string)
    requires raw != [] && '`' !in raw
    ensures '`' !in CleanSqlQuery(raw)
  {
    StripFencesWithoutBacktick(raw);
    var u := Strip(raw);
    StripAddsNothing(raw, '`');
    CollapseAddsNoBacktick(u);
    var c := CollapseSpacing(u);
    CleanUnfold(raw);
    assert '`' !in c + ";";
  }

  /** The non-empty branch of the cleaner, by name. */
  lemma CleanUnfold(raw: string)
    requires raw != []
    ensures CleanSqlQuery(raw) == Terminated(CollapseSpacing(Strip(StripFences(raw))))
  {
  }

  lemma StripAddsNothing(s: string, c: char)
    requires c !in s
    ensures c !in Strip(s)
  {
    var l := TrimStart(s);
    assert l == s[|s| - |l|..];
    assert Strip(s) == l[..|Strip(s)|];
  }

  lemma CollapseAddsNoBacktick(u: string)
    requires '`' !in u
    ensures '`' !in CollapseSpacing(u)
  {
    ScanAddsNothing(u, Matches(BlankLines, u), "\n", 0, '`');
    var b := Sub(BlankLines, u);
    ScanAddsNothing(b, Matches(SpaceRun, b), " ", 0, '`');
  }

  /** The result of cleaning backtick-free text is a fixed point of cleaning. */
  lemma CleanIdempotent(raw: string)
    requires '`' !in raw
    ensures CleanSqlQuery(CleanSqlQuery(raw)) == CleanSqlQuery(raw)
  {
    if raw != [] {
      CleanAddsNoBacktick(raw);
      CleanSingleLine(CleanSqlQuery(raw));
    }
  }

  /** A non-empty input that is empty once fences and surrounding whitespace are
      gone cleans to a lone terminator: the emptiness guard only sees the raw text. */
  lemma CleanOfBlankBody(raw: string)
    requires raw != [] && Strip(StripFences(raw)) == []
    ensures CleanSqlQuery(raw) == ";"
  {
  }

  /** Whitespace-only input, such as three spaces, cleans to ";". */
  lemma CleanOfWhitespace(raw: string)
    requires raw != [] && forall i :: 0 <= i < |raw| ==> IsSpace(raw[i])
    ensures CleanSqlQuery(raw) == ";"
  {
    assert '`' !in raw by {
      assert !IsSpace('`');
    }
    StripFencesWithoutBacktick(raw);
    StripAllSpace(raw);
    CleanOfBlankBody(raw);
  }

  // ---------------------------------------------------------------------------
  // An independent definition of the whitespace collapse

  function DropLeadingSpace(s: string): string {
    if s != [] && s[0] == ' ' then s[1..] else s
  }

  /** Every maximal whitespace run becomes one plain space; nothing else changes.
      Read from the right: a whitespace character becomes a space that absorbs the
      space the rest of its run has already become. */
  function Squeeze(s: string): (r: string)
    ensures s != [] ==> r != [] && (r[0] == ' ' <==> IsSpace(s[0]))
    ensures s != [] && !IsSpace(s[0]) ==> r[0] == s[0]
    decreases |s|
  {
    if s == [] then []
    else if IsSpace(s[0]) then " " + DropLeadingSpace(Squeeze(s[1..]))
    else [s[0]] + Squeeze(s[1..])
  }

  lemma SqueezeCons(c: char, x: string)
    ensures Squeeze([c] + x) == if IsSpace(c) then " " + DropLeadingSpace(Squeeze(x)) else [c] + Squeeze(x)
  {
    assert ([c] + x)[1..] == x;
  }

  /** A non-empty whitespace run in front becomes one space, merged with the rest of the run. */
  lemma {:induction false} SqueezeSpaces(w: string, x: string)
    requires w != [] && forall k :: 0 <= k < |w| ==> IsSpace(w[k])
    ensures Squeeze(w + x) == " " + DropLeadingSpace(Squeeze(x))
    decreases |w|
  {
    assert w + x == [w[0]] + (w[1..] + x);
    SqueezeCons(w[0], w[1..] + x);
    if |w| > 1 {
      SqueezeSpaces(w[1..], x);
    } else {
      assert w[1..] + x == x;
    }
  }

  /** A word without whitespace in front is kept as it is. */
  lemma {:induction false} SqueezeWord(w: string, x: string)
    requires forall k :: 0 <= k < |w| ==> !IsSpace(w[k])
    ensures Squeeze(w + x) == w + Squeeze(x)
    decreases |w|
  {
    if w != [] {
      var c, v := w[0], w[1..];
      assert w + x == [c] + (v + x);
      SqueezeCons(c, v + x);
      assert !IsSpace(c);
      assert Squeeze(w + x) == [c] + Squeeze(v + x);
      SqueezeWord(v, x);
      assert [c] + (v + Squeeze(x)) == ([c] + v) + Squeeze(x);
      assert w == [c] + v;
    } else {
      assert w + x == x;
    }
  }

  /** `re.sub(r'\s+', ' ', ...)` computes the collapse. */
  lemma {:induction false} SpaceRunIsSqueeze(s: string, t: seq<nat>, i: nat)
    requires Table(s, t) && RunTable(s, t) && i <= |s|
    ensures Scan(s, t, " ", i) == Squeeze(s[i..])
    decreases |s| - i, 1
  {
    if i < |s| {
      if t[i] == 0 {
        SpaceRunIsSqueeze(s, t, i + 1);
        assert i == SpaceRunEnd(s, i);
        assert Scan(s, t, " ", i) == [s[i]] + Scan(s, t, " ", i + 1);
        SqueezeAtWord(s, i);
      } else {
        SpaceRunIsSqueezeAtRun(s, t, i);
      }
    }
  }

  lemma {:induction false} SpaceRunIsSqueezeAtRun(s: string, t: seq<nat>, i: nat)
    requires Table(s, t) && RunTable(s, t) && i < |s| && t[i] > 0
    ensures Scan(s, t, " ", i) == Squeeze(s[i..])
    decreases |s| - i, 0
  {
    var j := i + t[i];
    SpaceRunIsSqueeze(s, t, j);
    assert Scan(s, t, " ", i) == " " + Squeeze(s[j..]);
    RunThenWord(s, i, j);
  }

  /** A non-space character is kept in front of the rest's collapse. */
  lemma SqueezeAtWord(s: string, i: nat)
    requires i < |s| && !IsSpace(s[i])
    ensures Squeeze(s[i..]) == [s[i]] + Squeeze(s[i + 1..])
  {
    assert s[i..] == [s[i]] + s[i + 1..];
    SqueezeCons(s[i], s[i + 1..]);
  }

  /** Splits `s[i..]` at the end `j` of the whitespace run starting at `i`. */
  lemma RunThenWord(s: string, i: nat, j: nat)
    requires i < j <= |s| && j == SpaceRunEnd(s, i)
    ensures Squeeze(s[i..]) == " " + Squeeze(s[j..])
  {
    var w, x := s[i..j], s[j..];
    assert s[i..] == w + x;
    SqueezeRunThenWord(w, x);
  }

  /** A whitespace run followed by a non-space character or nothing becomes one space. */
  lemma SqueezeRunThenWord(w: string, x: string)
    requires w != [] && forall k :: 0 <= k < |w| ==> IsSpace(w[k])
    requires x == [] || !IsSpace(x[0])
    ensures Squeeze(w + x) == " " + Squeeze(x)
  {
    SqueezeSpaces(w, x);
  }

  /** `re.sub(r'\n\s*\n', '\n', ...)` replaces whitespace by whitespace, so the
      collapse that follows cannot tell it happened. */
  lemma {:induction false} BlankLinesInvisible(s: string, t: seq<nat>, i: nat)
    requires Table(s, t) && SpaceMatches(s, t) && i <= |s|
    ensures Squeeze(Scan(s, t, "\n", i)) == Squeeze(s[i..])
    decreases |s| - i, 1
  {
    if i < |s| {
      if t[i] == 0 {
        var rest := Scan(s, t, "\n", i + 1);
        BlankLinesInvisible(s, t, i + 1);
        assert Scan(s, t, "\n", i) == [s[i]] + rest;
        assert s[i..] == [s[i]] + s[i + 1..];
        SqueezeConsSame(s[i], rest, s[i + 1..]);
      } else {
        BlankLinesInvisibleAtMatch(s, t, i);
      }
    }
  }

  lemma {:induction false} BlankLinesInvisibleAtMatch(s: string, t: seq<nat>, i: nat)
    requires Table(s, t) && SpaceMatches(s, t) && i < |s| && t[i] > 0
    ensures Squeeze(Scan(s, t, "\n", i)) == Squeeze(s[i..])
    decreases |s| - i, 0
  {
    var j := i + t[i];
    var rest := Scan(s, t, "\n", j);
    assert Scan(s, t, "\n", i) == "\n" + rest;
    BlankLinesInvisible(s, t, j);
    NewlineSqueeze(rest);
    assert MatchAllSpace(s, t, i);
    MatchSqueeze(s, i, j);
  }

  /** Squeezing from a match on is one space, then what follows the match. */
  lemma MatchSqueeze(s: string, i: nat, j: nat)
    requires i < j <= |s| && forall l :: i <= l < j ==> IsSpace(s[l])
    ensures Squeeze(s[i..]) == " " + DropLeadingSpace(Squeeze(s[j..]))
  {
    SpaceSlice(s, i, j);
    assert s[i..] == s[i..j] + s[j..];
    SqueezeSplit(s[i..], s[i..j], s[j..]);
  }

  lemma SqueezeSplit(u: string, w: string, x: string)
    requires u == w + x
    requires w != [] && forall k :: 0 <= k < |w| ==> IsSpace(w[k])
    ensures Squeeze(u) == " " + DropLeadingSpace(Squeeze(x))
  {
    SqueezeSpaces(w, x);
  }

  lemma SpaceSlice(s: string, i: nat, j: nat)
    requires i <= j <= |s| && forall l :: i <= l < j ==> IsSpace(s[l])
    ensures forall k :: 0 <= k < |s[i..j]| ==> IsSpace(s[i..j][k])
  {
  }

  /** Squeezing respects a common first character. */
  lemma SqueezeConsSame(c: char, x: string, y: string)
    requires Squeeze(x) == Squeeze(y)
    ensures Squeeze([c] + x) == Squeeze([c] + y)
  {
    SqueezeCons(c, x);
    SqueezeCons(c, y);
  }

  lemma NewlineSqueeze(x: string)
    ensures Squeeze("\n" + x) == " " + DropLeadingSpace(Squeeze(x))
  {
    SqueezeCons('\n', x);
    assert "\n" + x == ['\n'] + x;
  }

  /** The blank-line rewrite of line 25 is subsumed by the collapse of line 26:
      together they compute exactly Squeeze. */
  lemma CollapseSpacingIsSqueeze(s: string)
    ensures CollapseSpacing(s) == Squeeze(s)
  {
    var b := Sub(BlankLines, s);
    SpaceRunTable(b);
    SpaceRunIsSqueeze(b, Matches(SpaceRun, b), 0);
    SpacingMatches(BlankLines, s);
    BlankLinesInvisible(s, Matches(BlankLines, s), 0);
    assert b[0..] == b && s[0..] == s;
  }

  /** On backtick-free text the cleaner is trimming, the collapse and the terminator. */
  lemma CleanWithoutFences(raw: string)
    requires raw != [] && '`' !in raw
    ensures var q := Squeeze(Strip(raw));
      CleanSqlQuery(raw) == if EndsWithSemicolon(q) then q else q + ";"
  {
    StripFencesWithoutBacktick(raw);
    CollapseSpacingIsSqueeze(Strip(raw));
  }

  // ---------------------------------------------------------------------------
  // A fenced block

  /** `re.sub(r'^```sql\s*\n?', ...)` on an opening line, the text `w` and a
      closing fence: the greedy `\s*` takes the line feed after the opening line
      and the whitespace `w` starts with (all of `w` when it is blank); the
      closing fence stays. */
  lemma OpenSqlFenceOfBlock(tag: string, w: string)
    requires |tag| == 3 && SqlTagAt(tag, 0)
    requires '`' !in w
    ensures Sub(OpenSqlFence, "```" + tag + "\n" + w + "```") == TrimStart(w) + "```"
  {
    TaggedLayout(tag, w);
    OpenSqlFenceOfLayout("```" + tag + "\n" + w + "```", w, TrimStart(w));
  }

  /** The same, over the layout facts of a tagged block and the facts that make
      `u` its text with the leading whitespace dropped. */
  lemma OpenSqlFenceOfLayout(s: string, w: string, u: string)
    requires |s| == |w| + 10 && '`' !in w && s[6] == '\n'
    requires s[7..|w| + 7] == w && s[|w| + 7..] == "```"
    requires AtLineStart(s, 0) && FenceAt(s, 0) && SqlTagAt(s, 3)
    requires forall k :: 0 <= k < |w| ==> s[k + 7] == w[k]
    requires |u| <= |w| && u == w[|w| - |u|..] && (u != [] ==> !IsSpace(u[0]))
    requires forall j :: 0 <= j < |w| - |u| ==> IsSpace(w[j])
    ensures Sub(OpenSqlFence, s) == u + "```"
  {
    var e := 7 + |w| - |u|;
    assert SpaceRunEnd(s, 6) == e && s[e..] == u + "```" by {
      OpeningRun(s, 6, w, u);
    }
    assert MatchLength(OpenSqlFence, s, 0) == e
      && forall k :: e <= k < |s| ==> MatchLength(OpenSqlFence, s, k) == 0 by {
      TaggedSqlMatches(s, w, e);
    }
    SubAfterLeadingMatch(OpenSqlFence, s, e);
  }

  /** Where the first pattern matches in a tagged block: only at the start. */
  lemma TaggedSqlMatches(s: string, w: string, e: nat)
    requires |s| == |w| + 10 && '`' !in w && forall k :: 0 <= k < |w| ==> s[k + 7] == w[k]
    requires AtLineStart(s, 0) && FenceAt(s, 0) && SqlTagAt(s, 3)
    requires 7 <= e <= |w| + 7 && SpaceRunEnd(s, 6) == e
    ensures MatchLength(OpenSqlFence, s, 0) == e
    ensures forall k :: e <= k < |s| ==> MatchLength(OpenSqlFence, s, k) == 0
  {
    forall k | e <= k < |s|
      ensures MatchLength(OpenSqlFence, s, k) == 0
    {
      if k < 7 + |w| {
        var m := k - 7;
        assert s[m + 7] == w[m];
      }
    }
  }

  /** Where the parts of a tagged block sit. */
  lemma TaggedLayout(tag: string, w: string)
    requires |tag| == 3 && SqlTagAt(tag, 0)
    ensures var s := "```" + tag + "\n" + w + "```";
      && |s| == |w| + 10 && s[6] == '\n'
      && s[7..|w| + 7] == w && s[|w| + 7..] == "```"
      && AtLineStart(s, 0) && FenceAt(s, 0) && SqlTagAt(s, 3)
      && forall k :: 0 <= k < |w| ==> s[k + 7] == w[k]
  {
  }

  /** Where the parts of an untagged block sit. */
  lemma UntaggedLayout(w: string)
    ensures var s := "```\n" + w + "```";
      && |s| == |w| + 7 && s[3] == '\n'
      && s[4..|w| + 4] == w && s[|w| + 4..] == "```"
      && AtLineStart(s, 0) && FenceAt(s, 0)
      && forall k :: 0 <= k < |w| ==> s[k + 4] == w[k]
  {
  }

  /** The greedy `\s*` from the line feed at `i` stops where the trimmed text `u`
      starts, or at the closing fence when nothing is left. */
  lemma OpeningRun(s: string, i: nat, w: string, u: string)
    requires |s| == i + |w| + 4 && s[i] == '\n'
    requires s[i + 1..i + 1 + |w|] == w && s[i + 1 + |w|..] == "```"
    requires |u| <= |w| && u == w[|w| - |u|..] && (u != [] ==> !IsSpace(u[0]))
    requires forall j :: 0 <= j < |w| - |u| ==> IsSpace(w[j])
    ensures SpaceRunEnd(s, i) == i + 1 + |w| - |u|
    ensures s[i + 1 + |w| - |u|..] == u + "```"
  {
    var e := i + 1 + |w| - |u|;
    RestOfBlock(s, i, w, u);
    NoSpaceAfterRun(s, e, u);
    SpacesBeforeBody(s, i, w, u);
    SpaceRunEndAt(s, i, e);
  }

  /** The trimmed text, or the closing fence, starts with a non-space character. */
  lemma NoSpaceAfterRun(s: string, e: nat, u: string)
    requires e <= |s| && s[e..] == u + "```" && (u != [] ==> !IsSpace(u[0]))
    ensures e < |s| && !IsSpace(s[e])
  {
    assert s[e] == (u + "```")[0];
  }

  /** What follows the leading whitespace of the text. */
  lemma RestOfBlock(s: string, i: nat, w: string, u: string)
    requires |s| == i + |w| + 4 && s[i + 1..i + 1 + |w|] == w && s[i + 1 + |w|..] == "```"
    requires |u| <= |w| && u == w[|w| - |u|..]
    ensures s[i + 1 + |w| - |u|..] == u + "```"
  {
    var e := i + 1 + |w| - |u|;
    assert s[e..i + 1 + |w|] == w[|w| - |u|..];
    assert s[e..] == s[e..i + 1 + |w|] + s[i + 1 + |w|..];
  }

  /** The leading whitespace of the text, in place. */
  lemma SpacesBeforeBody(s: string, i: nat, w: string, u: string)
    requires |s| == i + |w| + 4 && s[i + 1..i + 1 + |w|] == w
    requires |u| <= |w| && forall j :: 0 <= j < |w| - |u| ==> IsSpace(w[j])
    ensures forall k :: i < k < i + 1 + |w| - |u| ==> IsSpace(s[k])
  {
    forall k | i < k < i + 1 + |w| - |u|
      ensures IsSpace(s[k])
    {
      assert s[k] == w[k - i - 1];
    }
  }

  /** A whitespace run from `i` that stops at a non-space character at `e` ends at `e`. */
  lemma SpaceRunEndAt(s: string, i: nat, e: nat)
    requires i <= e < |s| && !IsSpace(s[e])
    requires IsSpace(s[i]) && forall k :: i < k < e ==> IsSpace(s[k])
    ensures SpaceRunEnd(s, i) == e
  {
  }

  /** `re.sub(r'^```\s*\n?', ...)` then removes the closing fence, which starts the
      last line; the line feed before it stays. */
  lemma OpenFenceOfBlockEnd(b: string)
    requires '`' !in b
    ensures Sub(OpenFence, b + "\n```") == b + "\n"
  {
    var s := b + "\n```";
    var L := |b|;
    var t := Matches(OpenFence, s);
    forall k | 0 <= k < L + 1
      ensures t[k] == 0
    {
      if k < L {
        assert s[k] == b[k];
      }
    }
    ScanCopies(s, t, "", 0, L + 1);
    assert MatchLength(OpenFence, s, L + 1) == 3;
    assert s[0..L + 1] == b + "\n";
  }

  /** What the opening-fence removal leaves of a block is a bare closing fence or
      a body ending in a line feed; either way the closing fence goes. */
  lemma OpenFenceOfTrimmedBlock(u: string)
    requires '`' !in u && (u == [] || u[|u| - 1] == '\n')
    ensures Sub(OpenFence, u + "```") == u
  {
    if u == [] {
      assert u + "```" == "```";
      assert MatchLength(OpenFence, "```", 0) == 3;
      SubAfterLeadingMatch(OpenFence, "```", 3);
    } else {
      var b := u[..|u| - 1];
      assert u == b + "\n" && u + "```" == b + "\n```";
      OpenFenceOfBlockEnd(b);
    }
  }

  /** `lstrip()` of a text with a whitespace character appended. */
  lemma {:induction false} TrimStartAppendSpace(b: string, c: char)
    requires IsSpace(c)
    ensures TrimStart(b + [c]) == if TrimStart(b) == [] then [] else TrimStart(b) + [c]
    decreases |b|
  {
    if b == [] {
      assert TrimStart([c]) == TrimStart([c][1..]);
    } else if IsSpace(b[0]) {
      assert (b + [c])[1..] == b[1..] + [c];
      TrimStartAppendSpace(b[1..], c);
    }
  }

  /** Trailing whitespace does not change what `strip()` keeps. */
  lemma StripTrimStartAppendSpace(b: string, c: char)
    requires IsSpace(c)
    ensures Strip(TrimStart(b + [c])) == Strip(b)
  {
    TrimStartAppendSpace(b, c);
    var x := TrimStart(b);
    if x != [] {
      TrimStartOfWord(x + [c]);
      TrimEndAppendSpace(x, c);
    }
  }

  /** Text that starts with a non-space character has nothing to `lstrip()`. */
  lemma TrimStartOfWord(y: string)
    requires y != [] && !IsSpace(y[0])
    ensures TrimStart(y) == y
  {
  }

  /** `rstrip()` drops an appended whitespace character. */
  lemma TrimEndAppendSpace(x: string, c: char)
    requires IsSpace(c)
    ensures TrimEnd(x + [c]) == TrimEnd(x)
  {
    var y := x + [c];
    assert y[..|y| - 1] == x;
  }

  /** The three fence removals leave of a block its body with leading whitespace
      trimmed, and the line feed that preceded the closing fence. */
  lemma StripFencesOfBlock(tag: string, b: string)
    requires |tag| == 3 && SqlTagAt(tag, 0)
    requires '`' !in b
    ensures StripFences("```" + tag + "\n" + b + "\n```") == TrimStart(b + "\n")
  {
    Regroup("```" + tag + "\n", b);
    LineOfBody(b);
    OpenSqlFenceOfBlock(tag, b + "\n");
    var u := TrimStart(b + "\n");
    TrimmedBody(b);
    OpenFenceOfTrimmedBlock(u);
    FenceSubWithoutBacktick(CloseFence, u);
  }

  /** The trimmed body is empty or still ends with the line feed. */
  lemma TrimmedBody(b: string)
    requires '`' !in b
    ensures var u := TrimStart(b + "\n");
      '`' !in u && (u == [] || u[|u| - 1] == '\n')
  {
    var w := b + "\n";
    var u := TrimStart(w);
    assert u == w[|w| - |u|..];
    if u != [] {
      assert u[|u| - 1] == w[|w| - 1];
    }
  }

  /** A fenced block tagged `sql` in any letter case cleans like its body alone,
      whatever whitespace the body holds: the opening fence goes with the
      whitespace after it, the closing fence, which starts a line, goes by the
      second pattern, and the line feed before it by `strip()`. */
  lemma CleanFencedBlock(tag: string, b: string)
    requires |tag| == 3 && SqlTagAt(tag, 0)
    requires b != [] && '`' !in b
    ensures CleanSqlQuery("```" + tag + "\n" + b + "\n```") == CleanSqlQuery(b)
  {
    StripFencesOfBlock(tag, b);
    StripFencesWithoutBacktick(b);
    assert b + "\n" == b + ['\n'];
    StripTrimStartAppendSpace(b, '\n');
  }

  /** Where the closing fence ends a line of text instead of starting one, the
      second pattern, which needs a line start, finds nothing. */
  lemma OpenFenceMidLine(u: string)
    requires '`' !in u && u != [] && u[|u| - 1] != '\n'
    ensures Sub(OpenFence, u + "```") == u + "```"
  {
    var s := u + "```";
    forall k | 0 <= k < |s|
      ensures MatchLength(OpenFence, s, k) == 0
    {
      if k < |u| {
        assert s[k] == u[k];
      } else if k == |u| {
        assert s[k - 1] == u[|u| - 1];
      }
    }
    SubWithoutMatch(OpenFence, s);
  }

  /** `re.sub(r'\n?```$', ...)` removes a closing fence at the end of a line that
      holds text. */
  lemma CloseFenceOfLineEnd(b: string)
    requires '`' !in b && (b == [] || b[|b| - 1] != '\n')
    ensures Sub(CloseFence, b + "```") == b
  {
    var s := b + "```";
    var t := Matches(CloseFence, s);
    forall k | 0 <= k < |b|
      ensures t[k] == 0
    {
      assert s[k] == b[k];
      if k + 1 < |b| {
        assert s[k + 1] == b[k + 1];
      }
    }
    ScanCopies(s, t, "", 0, |b|);
    assert MatchLength(CloseFence, s, |b|) == 3;
    assert Scan(s, t, "", |b|) == "" + Scan(s, t, "", |s|);
    assert s[0..|b|] == b;
  }

  /** The three fence removals on a tagged block whose closing fence follows the
      last line of text: the opening fence goes as in a block, and the closing
      fence goes by the second pattern when it starts a line and by the third
      when it ends one. */
  lemma StripFencesOfLine(tag: string, b: string)
    requires |tag| == 3 && SqlTagAt(tag, 0)
    requires '`' !in b
    ensures StripFences("```" + tag + "\n" + b + "```") == TrimStart(b)
  {
    OpenSqlFenceOfBlock(tag, b);
    var u := TrimStart(b);
    assert '`' !in u by {
      assert u == b[|b| - |u|..];
    }
    if u == [] || u[|u| - 1] == '\n' {
      OpenFenceOfTrimmedBlock(u);
      FenceSubWithoutBacktick(CloseFence, u);
    } else {
      OpenFenceMidLine(u);
      CloseFenceOfLineEnd(u);
    }
  }

  /** `lstrip()` is idempotent. */
  lemma TrimStartTwice(b: string)
    ensures TrimStart(TrimStart(b)) == TrimStart(b)
  {
    if TrimStart(b) != [] {
      TrimStartOfWord(TrimStart(b));
    }
  }

  /** A `sql`-tagged block whose closing fence ends the last line of text, as in
      "```sql\nSELECT 1```", cleans like its body alone. */
  lemma CleanFencedLine(tag: string, b: string)
    requires |tag| == 3 && SqlTagAt(tag, 0)
    requires b != [] && '`' !in b
    ensures CleanSqlQuery("```" + tag + "\n" + b + "```") == CleanSqlQuery(b)
  {
    StripFencesOfLine(tag, b);
    StripFencesWithoutBacktick(b);
    TrimStartTwice(b);
  }

  /** `re.sub(r'^```sql\s*\n?', ...)` finds nothing in an untagged block. */
  lemma UntaggedNoSqlFence(b: string)
    requires '`' !in b
    ensures Sub(OpenSqlFence, "```\n" + b + "\n```") == "```\n" + b + "\n```"
  {
    var w := b + "\n";
    var s := "```\n" + w + "```";
    assert s == "```\n" + b + "\n```";
    UntaggedLayout(w);
    forall k | 0 <= k < |s|
      ensures MatchLength(OpenSqlFence, s, k) == 0
    {
      if 4 <= k < |w| + 4 {
        var m := k - 4;
        assert s[m + 4] == w[m];
      }
    }
    SubWithoutMatch(OpenSqlFence, s);
  }

  /** `re.sub(r'^```\s*\n?', ...)` on an untagged block removes both fences: the
      opening one with the whitespace after it, and the closing one, which starts
      a line. */
  lemma OpenFenceOfUntaggedBlock(b: string)
    requires '`' !in b
    ensures Sub(OpenFence, "```\n" + b + "\n```") == TrimStart(b + "\n")
  {
    Regroup("```\n", b);
    LineOfBody(b);
    OpenFenceOfUntagged(b + "\n");
  }

  /** A body and the line feed before the closing fence, taken as one text. */
  lemma Regroup(x: string, b: string)
    ensures x + b + "\n```" == x + (b + "\n") + "```"
  {
  }

  /** A backtick-free body with its line feed is a non-empty backtick-free line. */
  lemma LineOfBody(b: string)
    requires '`' !in b
    ensures var w := b + "\n"; '`' !in w && w != [] && w[|w| - 1] == '\n'
  {
  }

  /** The same, for the text `w` between the opening line and the closing fence. */
  lemma OpenFenceOfUntagged(w: string)
    requires '`' !in w && w != [] && w[|w| - 1] == '\n'
    ensures Sub(OpenFence, "```\n" + w + "```") == TrimStart(w)
  {
    UntaggedLayout(w);
    OpenFenceOfUntaggedLayout("```\n" + w + "```", w, TrimStart(w));
  }

  /** The same, over the layout facts of an untagged block and the facts that
      make `u` its text with the leading whitespace dropped. */
  lemma OpenFenceOfUntaggedLayout(s: string, w: string, u: string)
    requires |s| == |w| + 7 && '`' !in w && w != [] && w[|w| - 1] == '\n' && s[3] == '\n'
    requires s[4..|w| + 4] == w && s[|w| + 4..] == "```"
    requires AtLineStart(s, 0) && FenceAt(s, 0)
    requires forall k :: 0 <= k < |w| ==> s[k + 4] == w[k]
    requires |u| <= |w| && u == w[|w| - |u|..] && (u != [] ==> !IsSpace(u[0]))
    requires forall j :: 0 <= j < |w| - |u| ==> IsSpace(w[j])
    ensures Sub(OpenFence, s) == u
  {
    var e := 4 + |w| - |u|;
    assert SpaceRunEnd(s, 3) == e && s[e..|s| - 3] == u by {
      OpeningRun(s, 3, w, u);
      SliceBeforeFence(s, e, u);
    }
    var t := Matches(OpenFence, s);
    assert t[0] == e && t[|w| + 4] == 3 && forall k :: e <= k < |w| + 4 ==> t[k] == 0 by {
      UntaggedFenceMatches(s, w, e);
    }
    ScanBetweenMatches(s, t, "", e, |w| + 4);
  }

  /** The text before a closing fence. */
  lemma SliceBeforeFence(s: string, e: nat, u: string)
    requires e <= |s| && s[e..] == u + "```"
    ensures s[e..|s| - 3] == u
  {
    assert s[e..|s| - 3] == s[e..][..|u|];
  }

  /** Where the second pattern matches in an untagged block: the opening fence,
      then nothing in the text, then the closing fence. */
  lemma UntaggedFenceMatches(s: string, w: string, e: nat)
    requires |s| == |w| + 7 && '`' !in w && w != [] && w[|w| - 1] == '\n'
    requires forall k :: 0 <= k < |w| ==> s[k + 4] == w[k]
    requires AtLineStart(s, 0) && FenceAt(s, 0) && s[|w| + 4..] == "```"
    requires 4 <= e <= |w| + 4 && SpaceRunEnd(s, 3) == e
    ensures var t := Matches(OpenFence, s);
      && t[0] == e && t[|w| + 4] == 3
      && forall k :: e <= k < |w| + 4 ==> t[k] == 0
  {
    var L := |w|;
    forall k | e <= k < L + 4
      ensures MatchLength(OpenFence, s, k) == 0
    {
      var m := k - 4;
      assert s[m + 4] == w[m];
    }
    assert s[L + 3] == w[L - 1];
    assert s[L + 4] == '`' && s[L + 5] == '`' && s[L + 6] == '`';
    assert SpaceRunEnd(s, L + 7) == L + 7;
  }

  /** A scan with one match at the start, a match-free stretch, and one match
      reaching the end. */
  lemma ScanBetweenMatches(s: string, t: seq<nat>, rep: string, e: nat, j: nat)
    requires Table(s, t) && 0 < e <= j < |s| && t[0] == e && t[j] == |s| - j
    requires forall k :: e <= k < j ==> t[k] == 0
    ensures Scan(s, t, rep, 0) == rep + s[e..j] + rep
  {
    ScanCopies(s, t, rep, e, j);
    assert Scan(s, t, rep, j) == rep + Scan(s, t, rep, |s|);
    assert Scan(s, t, rep, 0) == rep + Scan(s, t, rep, e);
  }

  /** The three fence removals leave of an untagged block its body without
      leading whitespace, followed by the line feed before the closing fence. */
  lemma StripFencesOfUntaggedBlock(b: string)
    requires '`' !in b
    ensures StripFences("```\n" + b + "\n```") == TrimStart(b + "\n")
  {
    UntaggedNoSqlFence(b);
    OpenFenceOfUntaggedBlock(b);
    TrimmedBody(b);
    FenceSubWithoutBacktick(CloseFence, TrimStart(b + "\n"));
  }

  /** An untagged fenced block cleans like its body alone. */
  lemma CleanUntaggedBlock(b: string)
    requires b != [] && '`' !in b
    ensures CleanSqlQuery("```\n" + b + "\n```") == CleanSqlQuery(b)
  {
    StripFencesOfUntaggedBlock(b);
    StripFencesWithoutBacktick(b);
    assert b + "\n" == b + ['\n'];
    StripTrimStartAppendSpace(b, '\n');
  }

  // ---------------------------------------------------------------------------
  // Fences inside a longer reply: `^` and `$` under MULTILINE

  /** A scan whose table has one match, at `i`, copies the text around it and
      puts the replacement in its place. */
  lemma ScanOfOneMatch(s: string, t: seq<nat>, rep: string, i: nat)
    requires Table(s, t) && i < |s| && t[i] > 0
    requires forall k :: 0 <= k < i ==> t[k] == 0
    requires forall k :: i + t[i] <= k < |s| ==> t[k] == 0
    ensures Scan(s, t, rep, 0) == s[..i] + rep + s[i + t[i]..]
  {
    var n := i + t[i];
    var tail := Scan(s, t, rep, n);
    ScanCopies(s, t, rep, n, |s|);
    assert Scan(s, t, rep, |s|) == [];
    assert tail == s[n..] by {
      assert s[n..|s|] == s[n..];
    }
    ScanCopies(s, t, rep, 0, i);
    assert Scan(s, t, rep, i) == rep + tail;
    assert s[0..i] == s[..i];
  }

  /** The first pattern at a line start `i` whose tag line ends right after the
      tag, before text that does not start with whitespace: where no other
      backtick could begin a tagged fence, exactly those seven characters go. */
  lemma OneSqlFence(s: string, i: nat)
    requires i + 7 < |s|
    requires AtLineStart(s, i) && FenceAt(s, i) && SqlTagAt(s, i + 3)
    requires s[i + 6] == '\n' && !IsSpace(s[i + 7])
    requires forall k :: 0 <= k < |s| && s[k] == '`' ==> i <= k < i + 3 || |s| < k + 6
    ensures Sub(OpenSqlFence, s) == s[..i] + s[i + 7..]
  {
    var t := Matches(OpenSqlFence, s);
    assert SpaceRunEnd(s, i + 7) == i + 7;
    assert t[i] == 7;
    forall k | 0 <= k < |s| && (k < i || i + 7 <= k)
      ensures t[k] == 0
    {
      if FenceAt(s, k) {
        assert s[k] == '`';
      }
    }
    ScanOfOneMatch(s, t, "", i);
    assert Replacement(OpenSqlFence) == "";
  }

  /** Where the parts of a reply with a line of prose before a tagged fence sit. */
  lemma PreambleLayout(a: string, tag: string, w: string)
    requires |tag| == 3 && SqlTagAt(tag, 0)
    ensures var s := a + "\n```" + tag + "\n" + w;
      && |s| == |a| + 8 + |w| && s[|a|] == '\n' && s[|a| + 7] == '\n'
      && FenceAt(s, |a| + 1) && SqlTagAt(s, |a| + 4)
      && s[..|a| + 1] == a + "\n" && s[|a| + 8..] == w
      && (forall k :: 0 <= k < |a| ==> s[k] == a[k])
      && (forall k :: 0 <= k < |w| ==> s[|a| + 8 + k] == w[k])
  {
  }

  /** The first pattern on the layout facts of a reply with a line of prose `a`
      before the tagged fence and the text `w` after it. A backtick in `w` can
      only sit too near the end to begin a tagged fence. */
  lemma OpenSqlFenceAfterLine(s: string, a: string, w: string)
    requires |s| == |a| + 8 + |w| && s[|a|] == '\n' && s[|a| + 7] == '\n'
    requires FenceAt(s, |a| + 1) && SqlTagAt(s, |a| + 4)
    requires forall k :: 0 <= k < |a| ==> s[k] == a[k]
    requires forall k :: 0 <= k < |w| ==> s[|a| + 8 + k] == w[k]
    requires '`' !in a && w != [] && !IsSpace(w[0])
    requires forall k :: 0 <= k < |w| && w[k] == '`' ==> |w| < k + 6
    ensures Sub(OpenSqlFence, s) == s[..|a| + 1] + s[|a| + 8..]
  {
    var i := |a| + 1;
    assert s[i + 7] == w[0];
    forall k | 0 <= k < |a|
      ensures s[k] != '`'
    {
      assert s[k] == a[k] && a[k] in a;
    }
    forall k | i + 7 <= k < |s|
      ensures s[k] != '`' || |s| < k + 6
    {
      var m := k - (|a| + 8);
      assert s[|a| + 8 + m] == w[m];
    }
    OneSqlFence(s, i);
  }

  /** `^` under MULTILINE: a ```` ```sql ```` line after a line of prose is
      removed, and the prose and its line feed stay. */
  lemma OpenSqlFenceAfterPreamble(a: string, tag: string, b: string)
    requires |tag| == 3 && SqlTagAt(tag, 0)
    requires '`' !in a && '`' !in b && b != [] && !IsSpace(b[0])
    ensures Sub(OpenSqlFence, a + "\n```" + tag + "\n" + b) == a + "\n" + b
  {
    PreambleLayout(a, tag, b);
    OpenSqlFenceAfterLine(a + "\n```" + tag + "\n" + b, a, b);
  }

  /** The same with the closing fence on the last line, which the first pattern
      leaves: no tag follows it. */
  lemma OpenSqlFenceAfterPreambleBlock(a: string, tag: string, b: string)
    requires |tag| == 3 && SqlTagAt(tag, 0)
    requires '`' !in a && '`' !in b && b != [] && !IsSpace(b[0])
    ensures Sub(OpenSqlFence, a + "\n```" + tag + "\n" + b + "\n```") == a + "\n" + b + "\n```"
  {
    var w := b + "\n```";
    AppendFence(a + "\n```" + tag + "\n", b);
    AppendFence(a + "\n", b);
    ClosingTail(b);
    PreambleLayout(a, tag, w);
    OpenSqlFenceAfterLine(a + "\n```" + tag + "\n" + w, a, w);
  }

  /** A body and the closing fence after it, taken as one text. */
  lemma AppendFence(x: string, b: string)
    ensures x + b + "\n```" == x + (b + "\n```")
  {
  }

  /** The body and the closing fence: backticks only among its last three characters. */
  lemma ClosingTail(b: string)
    requires '`' !in b && b != []
    ensures var w := b + "\n```";
      && w[0] == b[0]
      && forall k :: 0 <= k < |w| && w[k] == '`' ==> |w| < k + 6
  {
    var w := b + "\n```";
    forall k | 0 <= k < |b|
      ensures w[k] != '`'
    {
      assert w[k] == b[k] && b[k] in b;
    }
  }

  /** The third pattern at a fence `i` that ends a line it does not start, with no
      other backtick in the text: exactly the fence goes, and the line feed after
      it stays. */
  lemma OneCloseFence(s: string, i: nat)
    requires i + 3 < |s| && FenceAt(s, i) && s[i + 3] == '\n'
    requires i == 0 || s[i - 1] != '\n'
    requires forall k :: 0 <= k < |s| && s[k] == '`' ==> i <= k < i + 3
    ensures Sub(CloseFence, s) == s[..i] + s[i + 3..]
  {
    var t := Matches(CloseFence, s);
    assert t[i] == 3;
    forall k | 0 <= k < |s| && (k < i || i + 3 <= k)
      ensures t[k] == 0
    {
    }
    ScanOfOneMatch(s, t, "", i);
    assert Replacement(CloseFence) == "";
  }

  /** Where the parts of a text with a fence ending an inner line sit. */
  lemma InnerFenceLayout(a: string, b: string)
    ensures var s := a + "```\n" + b;
      && |s| == |a| + 4 + |b| && FenceAt(s, |a|) && s[|a| + 3] == '\n'
      && s[..|a|] == a && s[|a| + 3..] == "\n" + b
      && (forall k :: 0 <= k < |a| ==> s[k] == a[k])
      && (forall k :: 0 <= k < |b| ==> s[|a| + 4 + k] == b[k])
  {
  }

  /** The third pattern on the layout facts of a text with a fence ending an
      inner line. */
  lemma CloseFenceOfInnerLine(s: string, a: string, b: string)
    requires |s| == |a| + 4 + |b| && FenceAt(s, |a|) && s[|a| + 3] == '\n'
    requires forall k :: 0 <= k < |a| ==> s[k] == a[k]
    requires forall k :: 0 <= k < |b| ==> s[|a| + 4 + k] == b[k]
    requires '`' !in a && '`' !in b && (a == [] || a[|a| - 1] != '\n')
    ensures Sub(CloseFence, s) == s[..|a|] + s[|a| + 3..]
  {
    var i := |a|;
    if a != [] {
      assert s[i - 1] == a[i - 1];
    }
    forall k | 0 <= k < i
      ensures s[k] != '`'
    {
      assert s[k] == a[k] && a[k] in a;
    }
    forall k | i + 4 <= k < |s|
      ensures s[k] != '`'
    {
      var m := k - (i + 4);
      assert s[i + 4 + m] == b[m] && b[m] in b;
    }
    OneCloseFence(s, i);
  }

  /** `$` under MULTILINE: a fence that ends an inner line of text is removed, and
      the line feed after it and the rest of the text stay. */
  lemma CloseFenceBeforeLineFeed(a: string, b: string)
    requires '`' !in a && '`' !in b && (a == [] || a[|a| - 1] != '\n')
    ensures Sub(CloseFence, a + "```\n" + b) == a + "\n" + b
  {
    InnerFenceLayout(a, b);
    CloseFenceOfInnerLine(a + "```\n" + b, a, b);
  }

  /** `strip()` ignores an appended whitespace character. */
  lemma StripAppendSpace(x: string, c: char)
    requires IsSpace(c)
    ensures Strip(x + [c]) == Strip(x)
  {
    TrimStartAppendSpace(x, c);
    if TrimStart(x) != [] {
      TrimEndAppendSpace(TrimStart(x), c);
    }
  }

  /** A reply with a line of prose before its fenced block: the fences go and the
      prose stays, so it cleans like the prose and the body without the fences. */
  lemma CleanFencedAfterPreamble(a: string, tag: string, b: string)
    requires |tag| == 3 && SqlTagAt(tag, 0)
    requires '`' !in a && '`' !in b && b != [] && !IsSpace(b[0])
    ensures CleanSqlQuery(a + "\n```" + tag + "\n" + b + "\n```") == CleanSqlQuery(a + "\n" + b)
  {
    var x := a + "\n" + b;
    NotInConcat('`', a + "\n", b);
    OpenSqlFenceAfterPreambleBlock(a, tag, b);
    OpenFenceOfBlockEnd(x);
    FenceSubWithoutBacktick(CloseFence, x + "\n");
    StripFencesWithoutBacktick(x);
    assert x + "\n" == x + ['\n'];
    StripAppendSpace(x, '\n');
  }
}

=== FILE: precheck.dfy ===
/** `validate_sql_syntax`: a heuristic filter of three checks, the first failing one wins. */
module PreCheck {
  import opened Text

  const ValidStarts: seq<string> :=
    ["SELECT", "INSERT", "UPDATE", "DELETE", "CREATE", "DROP", "ALTER", "SHOW", "DESCRIBE", "EXPLAIN"]

  const BadKeywordMessage := "Query doesn't start with a valid SQL keyword"
  const UnbalancedParensMessage := "Unbalanced parentheses in query"
  const UnbalancedQuotesMessage := "Unbalanced single quotes in query"
  const ValidMessage := "Query syntax appears valid"

  /** The `(ok, message)` pair the validator returns. */
  datatype Verdict = Verdict(ok: bool, message: string)

  /** Which of the checks decided the verdict. */
  datatype Finding = BadKeyword | UnbalancedParens | UnbalancedQuotes | LooksValid

  function Message(f: Finding): (m: string)
    ensures |m| >= 12
  {
    match f
    case BadKeyword => BadKeywordMessage
    case UnbalancedParens => UnbalancedParensMessage
    case UnbalancedQuotes => UnbalancedQuotesMessage
    case LooksValid => ValidMessage
  }

  /** The four messages are distinct, so the message alone tells which check decided. */
  lemma MessageDetermines(f: Finding, g: Finding)
    ensures Message(f) == Message(g) <==> f == g
  {
    if f != g {
      assert Message(f)[0] != Message(g)[0] || Message(f)[6] != Message(g)[6] || Message(f)[11] != Message(g)[11];
    }
  }

  /** `any(text.startswith(k) for k in keywords)` */
  predicate StartsWithAny(text: string, keywords: seq<string>) {
    exists k :: 0 <= k < |keywords| && keywords[k] <= text
  }

  /** The first check reads the upper-cased, stripped statement. */
  predicate HasValidStart(sql: string) {
    StartsWithAny(Strip(Upper(sql)), ValidStarts)
  }

  predicate ParensBalanced(sql: string) {
    Count(sql, '(') == Count(sql, ')')
  }

  /** `single_quotes % 2 != 0` negated; the difference is never negative
      (EscapedQuotesAtMostQuotes), so Python's and Dafny's `%` agree on it. */
  predicate QuotesBalanced(sql: string) {
    (Count(sql, '\'') - CountEscapedQuotes(sql)) % 2 == 0
  }

  /** The three checks in the order the validator runs them; the first failure wins. */
  function Check(sql: string): (f: Finding)
    ensures f == LooksValid <==> HasValidStart(sql) && ParensBalanced(sql) && QuotesBalanced(sql)
    ensures f == BadKeyword <==> !HasValidStart(sql)
    ensures f == UnbalancedParens <==> HasValidStart(sql) && !ParensBalanced(sql)
    ensures f == UnbalancedQuotes <==> HasValidStart(sql) && ParensBalanced(sql) && !QuotesBalanced(sql)
  {
    if !HasValidStart(sql) then BadKeyword
    else if !ParensBalanced(sql) then UnbalancedParens
    else if !QuotesBalanced(sql) then UnbalancedQuotes
    else LooksValid
  }

  /** `validate_sql_syntax` */
  function ValidateSqlSyntax(sql: string): (v: Verdict)
    ensures v.ok <==> HasValidStart(sql) && ParensBalanced(sql) && QuotesBalanced(sql)
    ensures v.message == Message(Check(sql))
  {
    var f := Check(sql);
    Verdict(f == LooksValid, Message(f))
  }

  /** The verdict is valid exactly when its message says so, and each failure message
      names the first check that fails. */
  lemma VerdictMessages(sql: string)
    ensures var v := ValidateSqlSyntax(sql);
      && (v.ok <==> v.message == ValidMessage)
      && (v.message == BadKeywordMessage <==> !HasValidStart(sql))
      && (v.message == UnbalancedParensMessage <==> HasValidStart(sql) && !ParensBalanced(sql))
      && (v.message == UnbalancedQuotesMessage <==>
            HasValidStart(sql) && ParensBalanced(sql) && !QuotesBalanced(sql))
  {
    var f := Check(sql);
    MessageDetermines(f, LooksValid);
    MessageDetermines(f, BadKeyword);
    MessageDetermines(f, UnbalancedParens);
    MessageDetermines(f, UnbalancedQuotes);
  }

  // ---------------------------------------------------------------------------
  // The keyword test is a prefix test on trimmed, upper-cased text

  lemma UpperOfUpper(s: string)
    ensures Upper(Upper(s)) == Upper(s)
  {
  }

  /** Upper-casing never turns a non-space into a space or back. */
  lemma SpaceUpperChar(c: char)
    ensures IsSpace(UpperChar(c)) == IsSpace(c)
  {
  }

  lemma UpperSplit(s: string)
    requires s != []
    ensures Upper(s)[0] == UpperChar(s[0])
    ensures Upper(s)[1..] == Upper(s[1..])
    ensures Upper(s)[..|s| - 1] == Upper(s[..|s| - 1])
    ensures Upper(s)[|s| - 1] == UpperChar(s[|s| - 1])
  {
  }

  /** Upper-casing and stripping commute: letters are never whitespace. */
  lemma StripUpper(s: string)
    ensures Strip(Upper(s)) == Upper(Strip(s))
  {
    TrimStartUpper(s);
    TrimEndUpper(TrimStart(s));
  }

  lemma {:induction false} TrimStartUpper(s: string)
    ensures TrimStart(Upper(s)) == Upper(TrimStart(s))
    decreases |s|
  {
    if s != [] {
      UpperSplit(s);
      SpaceUpperChar(s[0]);
      if IsSpace(s[0]) {
        TrimStartUpper(s[1..]);
      }
    }
  }

  lemma {:induction false} TrimEndUpper(s: string)
    ensures TrimEnd(Upper(s)) == Upper(TrimEnd(s))
    decreases |s|
  {
    if s != [] {
      UpperSplit(s);
      SpaceUpperChar(s[|s| - 1]);
      if IsSpace(s[|s| - 1]) {
        TrimEndUpper(s[..|s| - 1]);
      }
    }
  }

  lemma {:induction false} CountUpper(s: string, c: char)
    requires !('a' <= c <= 'z') && !('A' <= c <= 'Z')
    ensures Count(Upper(s), c) == Count(s, c)
    decreases |s|
  {
    if s != [] {
      UpperSplit(s);
      assert Upper(s)[0] == c <==> s[0] == c;
      CountUpper(s[1..], c);
    }
  }

  lemma {:induction false} CountEscapedQuotesUpper(s: string)
    ensures CountEscapedQuotes(Upper(s)) == CountEscapedQuotes(s)
    decreases |s|
  {
    if |s| >= 2 {
      UpperSplit(s);
      assert Upper(s)[1] == UpperChar(s[1]);
      CountEscapedQuotesUpper(s[1..]);
    }
  }

  lemma StartIgnoresCase(sql: string)
    ensures HasValidStart(Upper(sql)) == HasValidStart(sql)
  {
    UpperOfUpper(sql);
    StripUpper(sql);
    StripUpper(Upper(sql));
  }

  lemma ParensIgnoreCase(sql: string)
    ensures ParensBalanced(Upper(sql)) == ParensBalanced(sql)
  {
    CountUpper(sql, '(');
    CountUpper(sql, ')');
  }

  lemma QuotesIgnoreCase(sql: string)
    ensures QuotesBalanced(Upper(sql)) == QuotesBalanced(sql)
  {
    CountUpper(sql, '\'');
    CountEscapedQuotesUpper(sql);
  }

  /** The verdict does not depend on letter case. */
  lemma ValidateIgnoresCase(sql: string)
    ensures Check(Upper(sql)) == Check(sql)
    ensures ValidateSqlSyntax(Upper(sql)) == ValidateSqlSyntax(sql)
  {
    StartIgnoresCase(sql);
    ParensIgnoreCase(sql);
    QuotesIgnoreCase(sql);
  }

  /** Leading whitespace, then a keyword in any letter case, passes the keyword
      check whatever follows: `select x` and `SELECTED` both pass it. */
  lemma KeywordPrefixPasses(sql: string, lead: string, k: nat, word: string, rest: string)
    requires sql == lead + word + rest
    requires forall i :: 0 <= i < |lead| ==> IsSpace(lead[i])
    requires k < |ValidStarts| && Upper(word) == ValidStarts[k]
    ensures HasValidStart(sql)
  {
    KeywordShape(k);
    WordPrefixSurvives(lead, word, rest);
    assert ValidStarts[k] <= Strip(Upper(sql));
  }

  /** Upper-casing and stripping keep an upper-case word after leading whitespace at the front. */
  lemma WordPrefixSurvives(lead: string, word: string, rest: string)
    requires forall i :: 0 <= i < |lead| ==> IsSpace(lead[i])
    requires |word| >= 1 && forall i :: 0 <= i < |word| ==> 'A' <= Upper(word)[i] <= 'Z'
    ensures Upper(word) <= Strip(Upper(lead + word + rest))
  {
    UpperOfPrefixed(lead, word, rest);
    StripKeepsWord(Upper(lead + word + rest), |lead|, Upper(word));
  }

  /** A word with no whitespace at its end that follows n whitespace characters
      starts the stripped string. */
  lemma StripKeepsWord(u: string, n: nat, w: string)
    requires n < |u| && !IsSpace(u[n])
    requires forall i :: 0 <= i < n ==> IsSpace(u[i])
    requires w != [] && w <= u[n..] && !IsSpace(w[|w| - 1])
    ensures w <= Strip(u)
  {
    TrimStartSkipsSpaces(u, n);
    KeywordSurvivesTrimEnd(u[n..], w);
  }

  lemma KeywordShape(k: nat)
    requires k < |ValidStarts|
    ensures |ValidStarts[k]| >= 4
    ensures forall i :: 0 <= i < |ValidStarts[k]| ==> 'A' <= ValidStarts[k][i] <= 'Z'
  {
  }

  lemma UpperOfPrefixed(lead: string, word: string, rest: string)
    requires forall i :: 0 <= i < |lead| ==> IsSpace(lead[i])
    requires |Upper(word)| >= 1 && forall i :: 0 <= i < |word| ==> 'A' <= Upper(word)[i] <= 'Z'
    ensures var u := Upper(lead + word + rest);
      && |lead| < |u| && !IsSpace(u[|lead|])
      && (forall i :: 0 <= i < |lead| ==> IsSpace(u[i]))
      && u[|lead|..] == Upper(word) + Upper(rest)
  {
    var u := Upper(lead + word + rest);
    forall i | 0 <= i < |lead|
      ensures IsSpace(u[i])
    {
      SpaceUpperChar(lead[i]);
    }
    assert u[|lead|..] == Upper(word) + Upper(rest);
  }

  /** A string that starts with a keyword still starts with it after `rstrip()`. */
  lemma KeywordSurvivesTrimEnd(t: string, kw: string)
    requires kw != [] && kw <= t && !IsSpace(kw[|kw| - 1])
    ensures kw <= TrimEnd(t)
  {
    var r := TrimEnd(t);
    assert t[|kw| - 1] == kw[|kw| - 1];
    assert |kw| <= |r|;
  }

  /** After a keyword, only the rest of the statement decides the verdict. */
  lemma KeywordStatement(sql: string, k: nat, word: string, rest: string)
    requires sql == word + rest
    requires k < |ValidStarts| && Upper(word) == ValidStarts[k]
    ensures HasValidStart(sql)
    ensures ParensBalanced(sql) == ParensBalanced(rest)
    ensures QuotesBalanced(sql) == QuotesBalanced(rest)
    ensures Check(sql) ==
      if !ParensBalanced(rest) then UnbalancedParens
      else if !QuotesBalanced(rest) then UnbalancedQuotes
      else LooksValid
  {
    assert sql == [] + word + rest;
    KeywordPrefixPasses(sql, [], k, word, rest);
    KeywordLetters(k, word);
    ParensAfterWord(word, rest);
    QuotesAfterWord(word, rest);
  }

  lemma ParensAfterWord(word: string, rest: string)
    requires '(' !in word && ')' !in word
    ensures ParensBalanced(word + rest) == ParensBalanced(rest)
  {
    CountConcat(word, rest, '(');
    CountConcat(word, rest, ')');
  }

  lemma QuotesAfterWord(word: string, rest: string)
    requires '\'' !in word && '\\' !in word
    ensures QuotesBalanced(word + rest) == QuotesBalanced(rest)
  {
    CountConcat(word, rest, '\'');
    EscapedQuotesWithoutBackslash(word);
    EscapedQuotesConcat(word, rest);
  }

  /** A word that upper-cases to a keyword holds no bracket, apostrophe or backslash. */
  lemma KeywordLetters(k: nat, word: string)
    requires k < |ValidStarts| && Upper(word) == ValidStarts[k]
    ensures '(' !in word && ')' !in word && '\'' !in word && '\\' !in word
    ensures word != [] && word[|word| - 1] != '\\'
  {
    KeywordShape(k);
    assert forall i :: 0 <= i < |word| ==> 'A' <= UpperChar(word[i]) <= 'Z';
  }

  /** Blank input, the empty string included, fails the keyword check: every keyword
      is non-empty, and nothing is left after stripping. */
  lemma BlankFailsKeyword(sql: string)
    requires forall i :: 0 <= i < |sql| ==> IsSpace(sql[i])
    ensures Check(sql) == BadKeyword
  {
    forall i | 0 <= i < |sql|
      ensures IsSpace(Upper(sql)[i])
    {
      SpaceUpperChar(sql[i]);
    }
    StripAllSpace(Upper(sql));
    forall k | 0 <= k < |ValidStarts|
      ensures !(ValidStarts[k] <= Strip(Upper(sql)))
    {
      KeywordShape(k);
    }
  }

  /** TrimStart drops exactly the leading run of whitespace. */
  lemma {:induction false} TrimStartSkipsSpaces(u: string, n: nat)
    requires n < |u| && !IsSpace(u[n])
    requires forall i :: 0 <= i < n ==> IsSpace(u[i])
    ensures TrimStart(u) == u[n..]
    decreases n
  {
    if n > 0 {
      assert u[1..][n - 1] == u[n];
      TrimStartSkipsSpaces(u[1..], n - 1);
      assert u[1..][n - 1..] == u[n..];
    }
  }
}

=== FILE: precheck_examples.dfy ===
/** Worked examples of `validate_sql_syntax`. As in CleanExamples, the statements are
    passed as parameters built from concatenations; the facts about each literal
    piece are proved in helpers of their own, apart from the verdict. */
module PreCheckExamples {
  import opened Text
  import opened PreCheck

  /** "SELECT * FROM t" is accepted. */
  lemma AcceptsPlainSelect(sql: string, rest: string)
    requires rest == " * FROM t" && sql == "SELECT" + rest
    ensures Check(sql) == LooksValid
  {
    KeywordStatement(sql, 0, "SELECT", rest);
    PlainTextBalanced(rest);
  }

  lemma PlainTextBalanced(rest: string)
    requires rest == " * FROM t"
    ensures ParensBalanced(rest) && QuotesBalanced(rest)
  {
    PlainText(rest);
    EscapedQuotesWithoutBackslash(rest);
  }

  lemma PlainText(rest: string)
    requires rest == " * FROM t"
    ensures '(' !in rest && ')' !in rest && '\'' !in rest && '\\' !in rest
  {
  }

  /** The keyword test is a prefix test: "  select x" and "SELECTED" pass it. */
  lemma PrefixTestExamples(a: string, b: string)
    requires a == "  " + "select" + " x"
    requires b == "SELECT" + "ED"
    ensures HasValidStart(a) && HasValidStart(b)
  {
    KeywordPrefixPasses(a, "  ", 0, "select", " x");
    KeywordStatement(b, 0, "SELECT", "ED");
  }

  /** Parentheses are counted, not matched: "SELECT )(" passes. */
  lemma ParensOrderIgnored(sql: string, rest: string)
    requires rest == " )(" && sql == "SELECT" + rest
    ensures Check(sql) == LooksValid
  {
    KeywordStatement(sql, 0, "SELECT", rest);
    ReversedParensBalanced(rest);
  }

  lemma ReversedParensBalanced(rest: string)
    requires rest == " )("
    ensures ParensBalanced(rest) && QuotesBalanced(rest)
  {
    ReversedParensText(rest);
    EscapedQuotesWithoutBackslash(rest);
  }

  lemma ReversedParensText(rest: string)
    requires rest == " )("
    ensures Count(rest, '(') == 1 && Count(rest, ')') == 1
    ensures '\'' !in rest && '\\' !in rest
  {
  }

  /** "SELECT * FROM t(" reports its unbalanced parenthesis. */
  lemma RejectsOpenParen(sql: string, rest: string)
    requires rest == " * FROM t" + "(" && sql == "SELECT" + rest
    ensures Check(sql) == UnbalancedParens
  {
    KeywordStatement(sql, 0, "SELECT", rest);
    OpenParenUnbalanced(rest, " * FROM t", "(");
  }

  lemma OpenParenUnbalanced(rest: string, a: string, b: string)
    requires a == " * FROM t" && b == "(" && rest == a + b
    ensures !ParensBalanced(rest)
  {
    PlainText(a);
    OpenParenText(b);
    CountConcat(a, b, '(');
    CountConcat(a, b, ')');
  }

  lemma OpenParenText(b: string)
    requires b == "("
    ensures Count(b, '(') == 1 && ')' !in b
  {
  }

  /** "SELECT 'a" reports its unbalanced quote. */
  lemma RejectsOpenQuote(sql: string, rest: string)
    requires rest == " 'a" && sql == "SELECT" + rest
    ensures Check(sql) == UnbalancedQuotes
  {
    KeywordStatement(sql, 0, "SELECT", rest);
    OpenQuoteUnbalanced(rest);
  }

  lemma OpenQuoteUnbalanced(rest: string)
    requires rest == " 'a"
    ensures ParensBalanced(rest) && !QuotesBalanced(rest)
  {
    OpenQuoteText(rest);
    EscapedQuotesWithoutBackslash(rest);
  }

  lemma OpenQuoteText(rest: string)
    requires rest == " 'a"
    ensures '(' !in rest && ')' !in rest && '\\' !in rest && Count(rest, '\'') == 1
  {
  }

  /** "SELECT 'it\\'s ok'" is accepted: three apostrophes, one of them escaped. */
  lemma AcceptsEscapedQuote(sql: string, rest: string)
    requires rest == " 'it" + "\\'" + "s ok'" && sql == "SELECT" + rest
    ensures Check(sql) == LooksValid
  {
    KeywordStatement(sql, 0, "SELECT", rest);
    EscapedQuoteBalanced(rest, " 'it", "\\'", "s ok'");
  }

  lemma EscapedQuoteBalanced(rest: string, a: string, b: string, c: string)
    requires a == " 'it" && b == "\\'" && c == "s ok'" && rest == a + b + c
    ensures ParensBalanced(rest) && QuotesBalanced(rest)
  {
    EscapedQuoteCounts(rest, a, b, c);
    NoParens(rest, a, b, c);
  }

  lemma EscapedQuoteCounts(rest: string, a: string, b: string, c: string)
    requires a == " 'it" && b == "\\'" && c == "s ok'" && rest == a + b + c
    ensures Count(rest, '\'') == 3 && CountEscapedQuotes(rest) == 1
  {
    OneQuoteBefore(a);
    OneQuoteEscaped(b);
    OneQuoteAfter(c);
    EscapePieces(a, b, c);
    CountConcat(a, b, '\'');
    CountConcat(a + b, c, '\'');
    EscapedQuotesConcat(a, b);
    EscapedQuotesConcat(a + b, c);
    EscapedQuotesWithoutBackslash(a);
    EscapedQuotesWithoutBackslash(c);
  }

  lemma OneQuoteBefore(a: string)
    requires a == " 'it"
    ensures Count(a, '\'') == 1
  {
    assert Count(" 'it", '\'') == 1;
  }

  lemma OneQuoteEscaped(b: string)
    requires b == "\\'"
    ensures Count(b, '\'') == 1
  {
  }

  lemma OneQuoteAfter(c: string)
    requires c == "s ok'"
    ensures Count(c, '\'') == 1
  {
    assert Count("s ok'", '\'') == 1;
  }

  lemma EscapePieces(a: string, b: string, c: string)
    requires a == " 'it" && b == "\\'" && c == "s ok'"
    ensures '\\' !in a && '\\' !in c && CountEscapedQuotes(b) == 1
    ensures a[|a| - 1] == 't' && c[0] == 's'
  {
  }

  lemma NoParens(rest: string, a: string, b: string, c: string)
    requires a == " 'it" && b == "\\'" && c == "s ok'" && rest == a + b + c
    ensures '(' !in rest && ')' !in rest
  {
  }

  /** "SELEKT * FROM t" starts with no keyword. */
  lemma RejectsMisspelledKeyword(sql: string, word: string, rest: string)
    requires word == "SELEKT" && rest == " * FROM t" && sql == word + rest
    ensures Check(sql) == BadKeyword
  {
    MisspelledText(word, rest);
    UpperConcat(word, rest);
    UpperWithoutLower(word);
    var r := Upper(rest);
    assert r[|r| - 1] == UpperChar(rest[|rest| - 1]);
    NoKeywordBefore(Upper(sql), word, r);
  }

  lemma MisspelledText(word: string, rest: string)
    requires word == "SELEKT" && rest == " * FROM t"
    ensures forall i :: 0 <= i < |word| ==> !('a' <= word[i] <= 'z')
    ensures |word| == 6 && word[0] == 'S' && word[1] == 'E' && word[4] == 'K'
    ensures rest != [] && rest[|rest| - 1] == 't'
  {
  }

  /** A text starting "SE..K" and ending in a letter starts with none of the keywords,
      stripped or not. */
  lemma NoKeywordBefore(u: string, word: string, r: string)
    requires u == word + r
    requires |word| >= 5 && word[0] == 'S' && word[1] == 'E' && word[4] == 'K'
    requires r != [] && r[|r| - 1] == 'T'
    ensures !StartsWithAny(Strip(u), ValidStarts)
  {
    assert u[0] == 'S' && u[1] == 'E' && u[4] == 'K';
    assert u[|u| - 1] == 'T';
    assert NoSpaceAtEnds(u);
    StripNoSpaceAtEnds(u);
    NoKeywordStartsSEK(u);
  }

  /** Text whose first, second and fifth letters are S, E and K starts with no keyword. */
  lemma NoKeywordStartsSEK(u: string)
    requires |u| >= 5 && u[0] == 'S' && u[1] == 'E' && u[4] == 'K'
    ensures !StartsWithAny(u, ValidStarts)
  {
    OnlySelectStartsSE();
    forall k | 0 <= k < |ValidStarts|
      ensures !(ValidStarts[k] <= u)
    {
      var w := ValidStarts[k];
      KeywordShape(k);
      assert w[0] != u[0] || w[1] != u[1] || (|w| >= 5 && w[4] != u[4]);
    }
  }

  /** Of the keywords, only SELECT starts with "SE", and its fifth letter is C. */
  lemma OnlySelectStartsSE()
    ensures forall k :: 0 <= k < |ValidStarts| ==>
      ValidStarts[k][0] != 'S' || ValidStarts[k][1] != 'E' || ValidStarts[k][4] == 'C'
  {
    forall k | 0 <= k < |ValidStarts|
      ensures ValidStarts[k][0] != 'S' || ValidStarts[k][1] != 'E' || ValidStarts[k][4] == 'C'
    {
      KeywordShape(k);
    }
  }
}

=== FILE: text.dfy ===
/** Character and string primitives shared by the normaliser and the pre-check:
    Python's notion of whitespace, `str.strip()`, `str.upper()` and `str.count`. */
module Text {

  /** Python's `str.isspace()` on one character. The same set is what `\s`
      matches in a `str` regex pattern and what `str.strip()` removes. */
  predicate IsSpace(c: char) {
    || ('\t' <= c <= '\r')          // tab, line feed, vertical tab, form feed, carriage return
    || ('\U{1C}' <= c <= '\U{1F}')  // file, group, record and unit separators
    || c == ' '
    || c == '\U{85}' || c == '\U{A0}' || c == '\U{1680}'
    || ('\U{2000}' <= c <= '\U{200A}')
    || c == '\U{2028}' || c == '\U{2029}' || c == '\U{202F}' || c == '\U{205F}' || c == '\U{3000}'
  }

  predicate NoSpaceAtEnds(s: string) {
    s != [] ==> !IsSpace(s[0]) && !IsSpace(s[|s| - 1])
  }

  /** `s.lstrip()`: drops the longest all-whitespace prefix. */
  function TrimStart(s: string): (r: string)
    ensures |r| <= |s| && r == s[|s| - |r|..]
    ensures forall i :: 0 <= i < |s| - |r| ==> IsSpace(s[i])
    ensures r != [] ==> !IsSpace(r[0])
    decreases |s|
  {
    if s != [] && IsSpace(s[0]) then TrimStart(s[1..]) else s
  }

  /** `s.rstrip()`: drops the longest all-whitespace suffix. */
  function TrimEnd(s: string): (r: string)
    ensures |r| <= |s| && r == s[..|r|]
    ensures forall i :: |r| <= i < |s| ==> IsSpace(s[i])
    ensures r != [] ==> !IsSpace(r[|r| - 1])
    decreases |s|
  {
    if s != [] && IsSpace(s[|s| - 1]) then TrimEnd(s[..|s| - 1]) else s
  }

  /** `s.strip()` */
  function Strip(s: string): (r: string)
    ensures NoSpaceAtEnds(r)
  {
    TrimEnd(TrimStart(s))
  }

  /** Stripping leaves a string that already has no whitespace at either end unchanged. */
  lemma StripNoSpaceAtEnds(s: string)
    requires NoSpaceAtEnds(s)
    ensures Strip(s) == s
  {
    assert TrimStart(s) == s;
  }

  /** A string made only of whitespace strips to the empty string. */
  lemma StripAllSpace(s: string)
    requires forall i :: 0 <= i < |s| ==> IsSpace(s[i])
    ensures Strip(s) == []
  {
  }

  /** ASCII upper-casing of one character. */
  function UpperChar(c: char): (u: char)
    ensures ('a' <= c <= 'z') ==> 'A' <= u <= 'Z' && u as int == c as int - 32
    ensures !('a' <= c <= 'z') ==> u == c
  {
    if 'a' <= c <= 'z' then (c as int - 32) as char else c
  }

  /** `s.upper()` restricted to ASCII letters. */
  function Upper(s: string): (r: string)
    ensures |r| == |s|
    ensures forall i :: 0 <= i < |s| ==> r[i] == UpperChar(s[i])
  {
    seq(|s|, i requires 0 <= i < |s| => UpperChar(s[i]))
  }

  /** Number of positions holding `c`, which is `s.count(c)` for a one-character needle. */
  function Count(s: string, c: char): (n: nat)
    ensures n <= |s|
    ensures n == 0 <==> c !in s
    decreases |s|
  {
    if s == [] then 0 else (if s[0] == c then 1 else 0) + Count(s[1..], c)
  }

  /** Counting distributes over concatenation. */
  lemma {:induction false} CountConcat(a: string, b: string, c: char)
    ensures Count(a + b, c) == Count(a, c) + Count(b, c)
    decreases |a|
  {
    if a == [] {
      assert a + b == b;
    } else {
      assert (a + b)[0] == a[0] && (a + b)[1..] == a[1..] + b;
      CountConcat(a[1..], b, c);
    }
  }

  /** Number of backslash-apostrophe pairs. The needle cannot overlap itself, so
      this equals Python's non-overlapping `s.count("\\'")`. */
  function CountEscapedQuotes(s: string): (n: nat)
    decreases |s|
  {
    if |s| < 2 then 0
    else (if s[0] == '\\' && s[1] == '\'' then 1 else 0) + CountEscapedQuotes(s[1..])
  }

  /** Every escaped quote contains an apostrophe, so the difference the pre-check
      takes the parity of is never negative. */
  lemma {:induction false} EscapedQuotesAtMostQuotes(s: string)
    ensures CountEscapedQuotes(s) <= Count(s, '\'')
    decreases |s|
  {
    if |s| >= 2 {
      EscapedQuotesAtMostQuotes(s[1..]);
      if s[0] == '\\' && s[1] == '\'' {
        assert s[1..][0] == '\'';
        assert Count(s[1..], '\'') >= 1;
        EscapedQuotesAtMostQuotes(s[2..]);
        assert s[1..][1..] == s[2..];
        if |s| == 2 {
        } else {
          assert CountEscapedQuotes(s[1..]) == CountEscapedQuotes(s[2..]) by {
            assert !(s[1..][0] == '\\');
          }
        }
      }
    }
  }

  /** No backslash, no escaped quote. */
  lemma {:induction false} EscapedQuotesWithoutBackslash(s: string)
    requires '\\' !in s
    ensures CountEscapedQuotes(s) == 0
    decreases |s|
  {
    if |s| >= 2 {
      assert s[0] != '\\';
      EscapedQuotesWithoutBackslash(s[1..]);
    }
  }

  /** Escaped quotes of a concatenation are those of its parts, unless a backslash
      ending the first part meets an apostrophe starting the second. */
  lemma {:induction false} EscapedQuotesConcat(a: string, b: string)
    requires a == [] || b == [] || !(a[|a| - 1] == '\\' && b[0] == '\'')
    ensures CountEscapedQuotes(a + b) == CountEscapedQuotes(a) + CountEscapedQuotes(b)
    decreases |a|
  {
    if b == [] {
      assert a + b == a;
    } else if a == [] {
      assert a + b == b;
    } else if |a| == 1 {
      assert (a + b)[0] == a[0] && (a + b)[1] == b[0] && (a + b)[1..] == b;
    } else {
      assert (a + b)[0] == a[0] && (a + b)[1] == a[1] && (a + b)[1..] == a[1..] + b;
      EscapedQuotesConcat(a[1..], b);
    }
  }

  /** Upper-casing works character by character, so it distributes over concatenation. */
  lemma UpperConcat(a: string, b: string)
    ensures Upper(a + b) == Upper(a) + Upper(b)
  {
  }

  /** Text without lower-case letters is its own upper-case form. */
  lemma UpperWithoutLower(s: string)
    requires forall i :: 0 <= i < |s| ==> !('a' <= s[i] <= 'z')
    ensures Upper(s) == s
  {
  }
}
